=== FILE: README.md ===
# Gatehouse access log — a Dafny model

This project models the core of a gatehouse access log. A guard registers
people (by national ID, the *cédula*, and name) and their vehicles (by plate).
For each one the guard logs an entry or exit event with a destination. The
backend is a small Express API over an Airtable base. The front end is a
single-page form that scans Costa Rican ID-card barcodes and queues
registrations while offline.

The model covers these parts:

- **`Formula`** models `backend/utils.js`:
  - `sanitize`;
  - `buildFilterByFormula`, which drops falsy clauses and then gives nothing, the single clause, or `AND(...)`;
  - the exact-match and "contains" clauses;
  - the 24-hour / 7-day range clause.

  String literals inside a formula get a reader, `ReadLiteral`. With it, "the value placed in a clause is the value the formula engine reads back" can be stated.
- **`Personas`, `Vehiculos`, `Eventos`** model the GET and POST handlers of `backend/routes/`:
  - find-or-update of a person by ID;
  - find-or-create of a vehicle by plate *and* owner;
  - creation of an event with its defaults;
  - the query (filter, record cap, sort) each listing sends to the store.

  **`Store`** holds the records and the store's abstract behaviour:
  - a lookup with `maxRecords: 1` takes the first match in table order;
  - an insert appends;
  - a patch replaces in place.
- **`Cedula`** models the scan pipeline of `frontend/app.js`:
  - `parseCedulaPayload`, the segment heuristic for an ID and a name;
  - `decodeCedulaCR`, which XORs with a 17-entry cycling key, keeps only ASCII letters and digits, collapses whitespace and trims;
  - `handleScanResult`, which parses directly and then falls back to the de-obfuscated bytes.
- **`Session`** models the list of recent destinations and the entry/exit suggestion.
- **`Registration`** models the client side of a registration:
  - `registerEvent`, with its three requests and the client's vehicle cache;
  - the offline queue and `flushOffline`;
  - the submit handler's validation, method choice and online/offline branch.
- **`Text`** models the JavaScript string primitives used throughout: `\s`, `trim`, `replace(/\s+/g, …)`, `split(/\n|\||\r/)` and `toUpperCase`.
- **`Basics`** holds `Option`, first-match search, `filter` and `join`.

Things the code takes from outside are parameters of the model:

- new record ids and the server's clock (`new Date().toISOString()`) are passed in;
- `rangeFormula` takes `now` in epoch milliseconds and a function `iso` standing for `toISOString`;
- the network is an `Attempt`, which says how many requests of one registration are answered before the connection fails;
- a flush receives one `Attempt` per queued item.

Bytes that decode to `"987654321 MARIA GOMEZ"` yield no ID and the whole
string as the name. Decoded text never holds a newline, pipe or carriage
return, so it is a single segment, and a segment with a letter in it never
passes the nine-to-twelve-digit test (`Cedula.SpacedExample`,
`Cedula.FallbackSpacedPair`).

The clause builders in `backend/utils.js` do not escape double quotes (see
"## Findings"). The model keeps both versions. `Formula.AirtableEqAsWritten`
and `Formula.AirtableContainsAsWritten` are the clauses as written;
`Formula.AirtableEq` and `Formula.AirtableContains` escape `"` as `\"`, and the
route models use these. For a value without a double quote the two give the
same text (`Formula.QuoteFreeAgrees`), and each route has a lemma saying that
its filter is then the one the source sends.

## Model

| member | source | states |
|---|---|---|
| Text.Trim | backend/utils.js:3 | the result has no whitespace at either end, is no longer than the input, and is the input itself when the input has none |
| Text.TrimStripsOnlySpace | backend/utils.js:3 | trimming keeps one contiguous slice and removes only whitespace, all of it at the two ends |
| Text.TrimIdempotent | backend/utils.js:3 | trimming twice is trimming once |
| Text.RemoveSpaces | frontend/app.js:120 | deleting whitespace leaves no whitespace, never lengthens, keeps whitespace-free text unchanged and introduces no new character |
| Text.RemoveSpacesIsFilter | frontend/app.js:120 | deleting whitespace keeps exactly the non-whitespace characters, in their order: it is the input filtered by "not whitespace" |
| Text.RemoveSpacesAppend | frontend/app.js:120 | deleting whitespace distributes over concatenation, and a single character is kept exactly when it is not whitespace |
| Text.Collapse | frontend/app.js:164 | after collapsing, every whitespace character is a plain space and no two are adjacent; nothing else is introduced; the non-whitespace characters are exactly the input's, in order; and the text is empty or starts with whitespace exactly when the input did |
| Text.CollapseRunInPlace | frontend/app.js:164 | each maximal whitespace run becomes one space in its own place: text ending in a non-space, a run, and text starting with a non-space collapse to the two sides collapsed with one space between |
| Text.RemoveSpacesTrim | frontend/app.js:405 | trimming before deleting whitespace changes nothing |
| Text.CollapseOfSingleSpaced | frontend/app.js:164 | collapsing is the identity on text that is already single-spaced |
| Text.Split | frontend/app.js:113-114 | splitting yields at least one part, no part holds a separator, and text without a separator is one part |
| Text.SplitJoin | frontend/app.js:113-114 | splitting inverts joining with a separator whenever no part holds one |
| Text.ToUpper | backend/routes/vehiculos.js:71 | upper-casing is character by character: ASCII lower-case letters move down by 32 and other ASCII is unchanged |
| Text.ToUpperTrimmed | backend/routes/vehiculos.js:71 | upper-casing keeps text trimmed, and empty exactly when it was |
| Text.ToUpperIdempotent | backend/routes/vehiculos.js:71 | upper-casing twice is upper-casing once |
| Formula.Sanitize | backend/utils.js:1-4 | absent input gives "", the result is always trimmed, and already-trimmed input comes back unchanged |
| Formula.SanitizeStripsOnlySpace | backend/utils.js:1-4 | sanitising removes only edge whitespace |
| Formula.SanitizeNoBackslash | backend/utils.js:3 | sanitising cannot introduce a backslash, so a sanitised value keeps the read-back property of the quoting |
| Formula.SanitizeIdempotent | backend/utils.js:1-4 | sanitising a sanitised value changes nothing |
| Formula.Combine | backend/utils.js:8-10 | no clause gives "", one clause is returned as is, and several give `AND(` + the clauses joined by "," + `)` |
| Formula.BuildFilterByFormula | backend/utils.js:6-11 | the formula is empty exactly when every clause is empty; otherwise the non-empty clauses are combined in order |
| Formula.BuildFilterIgnoresEmpty | backend/utils.js:7 | an empty clause anywhere in the list does not change the formula |
| Formula.BuildFilterSingle | backend/utils.js:7-9 | one non-empty clause among empty ones is the whole formula |
| Formula.BuildFilterPair | backend/utils.js:10 | two non-empty clauses give `AND(a,b)` |
| Formula.QuoteAsWritten | backend/utils.js:14-15 | the quote replacement as written is the identity: the value is wrapped in quotes unchanged |
| Formula.AsWrittenQuoteBreaksOut | backend/utils.js:14-15 | with the quoting as written, a value holding `"` is read back only up to that quote, and the rest of the value becomes formula text |
| Formula.AirtableEqAsWritten | backend/utils.js:13-16 | the exact-match clause as written is `{field}="value"`, with the value verbatim |
| Formula.AirtableContainsAsWritten | backend/utils.js:18-21 | the contains clause as written is `FIND(LOWER("value"), LOWER({field}))`, with the value verbatim |
| Formula.AirtableEqAsWrittenBreaksOut | backend/utils.js:13-16 | a quote in the value ends the exact-match literal of the clause as written early |
| Formula.QuoteRoundTrip | backend/utils.js:14 | with quotes escaped as `\"`, the literal reads back as exactly the value, whatever follows it |
| Formula.AirtableEq | backend/utils.js:13-16 | the intended quoting, for a value without backslashes: the clause starts with `{field}=`, and its literal reads back as exactly the value |
| Formula.AirtableContains | backend/utils.js:18-21 | the intended quoting, for a value without backslashes: the clause starts with `FIND(LOWER(`, its literal reads back as exactly the value, and the lower-cased field reference follows it |
| Formula.QuoteFreeAgrees | backend/utils.js:13-21 | for a value without a double quote, the intended clauses are character for character the clauses as written |
| Formula.RangeWindow | backend/utils.js:27-33 | only "24h" and "7d" have a window, and it is a positive whole number of days |
| Formula.RangeFormula | backend/utils.js:23-36 | no clause for a missing, "all" or unknown range; "24h" and "7d" give `IS_AFTER` of now minus one or seven days |
| Store.SentSort | backend/airtable.js:32-37 | only an array of sort specs reaches the store, so a JSON-string sort is dropped |
| Store.FilterParam | backend/airtable.js:26-30 | an empty formula is not sent; any other formula is sent unchanged |
| Personas.FindByCedula | backend/routes/personas.js:48-52 | the lookup finds the first record with exactly that ID, and finds none only when no record has it |
| Personas.GetPersona | backend/routes/personas.js:10-17 | not found exactly when no record has the sanitised ID; otherwise the first record that has it |
| Personas.SearchPersonas | backend/routes/personas.js:25-34 | no filter for an empty query, otherwise OR of "contains" on ID and name; at most 20 records; the sort, passed as JSON text, is not applied |
| Personas.EitherContains | backend/routes/personas.js:26-28 | an `OR` of two "contains" clauses; for a term without backslashes the first literal reads back the term followed by the `cedula` reference, and the second reads back the term followed by the `nombre_completo` reference |
| Personas.EitherContainsAsSent | backend/routes/personas.js:26-28 | for a term without double quotes the clause is the `OR` of the two "contains" clauses as the source writes them |
| Personas.PostPersona | backend/routes/personas.js:42-66 | rejected, with the table unchanged, exactly when ID or name sanitise to ""; an existing ID gets its first record patched with the new name and time; only a new ID is appended with the new id |
| Personas.PostKeepsCedulasUnique | backend/routes/personas.js:48-66 | a table with at most one record per ID keeps that property through the POST |
| Personas.SecondPostUpdates | backend/routes/personas.js:48-58 | posting an already-saved ID again updates and never inserts |
| Vehiculos.ResolveOwner | backend/routes/vehiculos.js:17-29 | a given record id wins; otherwise a non-empty ID resolves to the id of the first person holding it, or to no owner when none does |
| Vehiculos.PlateOwnerFilter | backend/routes/vehiculos.js:31-37 | plate and owner clauses appear exactly for a non-empty plate and owner, combined with AND when both are present |
| Vehiculos.PlateOwnerFilterAsSent | backend/routes/vehiculos.js:31-37 | for a plate without double quotes the filter is the source's: its exact-match clause as written, alone or in an `AND` with the owner clause |
| Vehiculos.ListVehiculos | backend/routes/vehiculos.js:17-43 | the listing is filtered by the plate/owner filter, or not at all when both are empty; at most 50 records, sorted by plate ascending |
| Vehiculos.UnresolvedCedulaListsEverything | backend/routes/vehiculos.js:22-37 | an ID matching no person, with no plate and no record id, leaves the vehicle listing unfiltered |
| Vehiculos.SearchVehiculos | backend/routes/vehiculos.js:54-61 | no filter for an empty query, otherwise "contains" on the plate; at most 10 records, unsorted |
| Vehiculos.SearchVehiculosAsSent | backend/routes/vehiculos.js:54-61 | for a query without double quotes the filter is the source's "contains" clause as written |
| Vehiculos.FindVehiculo | backend/routes/vehiculos.js:81-87 | finds the first vehicle in table order with that plate linked to that owner, and finds none only when no such vehicle exists |
| Vehiculos.PostVehiculo | backend/routes/vehiculos.js:71-106 | the plate is sanitised and upper-cased; rejected, table unchanged, exactly when plate or owner is empty; an existing plate+owner vehicle is returned, table unchanged; otherwise one active vehicle is appended, linked to the owner, with a type only when given |
| Vehiculos.PostKeepsPlatePerOwnerUnique | backend/routes/vehiculos.js:81-106 | no owner ever gets two vehicles with the same plate |
| Eventos.SearchLines | backend/routes/eventos.js:30-38 | one indented "contains" line per search field; line i reads back exactly the search term, against field i |
| Eventos.SearchLinesAsSent | backend/routes/eventos.js:30-38 | for a search term without double quotes each line is the source's "contains" clause as written, indented |
| Eventos.SearchFormula | backend/routes/eventos.js:30-38 | the search clause is `OR(` and a newline, then the first search line; it holds every one of the seven lines and closes with `)` |
| Eventos.SearchFormulaAsSent | backend/routes/eventos.js:30-38 | for a search term without double quotes the search clause is exactly the source's: `OR(`, a newline, the seven indented "contains" lines as written joined by a comma and a newline, then a newline, six spaces and `)`, with no other disjunct |
| Eventos.EffectiveRange | backend/routes/eventos.js:18 | the range is never empty: the sanitised range when there is one, "24h" otherwise |
| Eventos.EventoClauses | backend/routes/eventos.js:22-40 | range, direction and search clauses appear, in that order, exactly when their inputs call for them, and none is empty |
| Eventos.TipoClauseAsSent | backend/routes/eventos.js:27 | for a direction without double quotes its clause is the source's exact-match clause as written |
| Eventos.ListEventos | backend/routes/eventos.js:18-48 | the listing is filtered exactly when some clause is present, by their combination; at most 50 records, newest first |
| Eventos.MissingRangeIsLastDay | backend/routes/eventos.js:18-25 | a missing range lists exactly as an explicit "24h", and its first clause is after now minus one day |
| Eventos.DefaultRange | backend/routes/eventos.js:18 | a missing range and "24h" both select "24h" |
| Eventos.SearchOnlyListing | backend/routes/eventos.js:18-42 | range "all" with only a search term filters by the seven-field search alone |
| Eventos.OptionalText | backend/routes/eventos.js:84 | an optional text is present exactly when it sanitises to non-empty, and then holds the sanitised text |
| Eventos.PostEvento | backend/routes/eventos.js:59-100 | rejected, table unchanged, exactly when the person link or destination is empty; otherwise one event is appended with "entrada"/"manual" defaults, a vehicle link only for a non-empty id, and text copies only when non-empty |
| Eventos.BuiltEventWellFormed | backend/routes/eventos.js:59-94 | an event built from a request that passes validation has trimmed, non-empty required fields and no empty optional ones |
| Eventos.PostKeepsEventsWellFormed | backend/routes/eventos.js:71-98 | a table of well-formed events stays well formed through the POST |
| Cedula.Parts | frontend/app.js:112-116 | every segment is non-empty, trimmed and holds no separator |
| Cedula.PartsJoin | frontend/app.js:112-116 | non-empty trimmed parts without separators or NUL, joined by a newline, pipe or carriage return, split back into exactly those parts |
| Cedula.FindCedula | frontend/app.js:118-125 | no ID exactly when no segment is 9 to 12 digits after deleting whitespace; a found ID is 9 to 12 digits |
| Cedula.FindCedulaIsFirst | frontend/app.js:119-125 | the ID comes from the first qualifying segment, with its whitespace deleted |
| Cedula.NameIndex | frontend/app.js:128-133 | the chosen segment holds a letter and is a longest one, and no earlier lettered segment is as long (the stable sort keeps the earliest of equals) |
| Cedula.FindName | frontend/app.js:127-133 | no name exactly when no segment holds a letter; otherwise a segment holding a letter |
| Cedula.NameIsEarliestLongest | frontend/app.js:131-133 | the earliest of the longest lettered segments is the name |
| Cedula.ParseCedulaPayload | frontend/app.js:110-137 | nothing for empty text or when no segment qualifies as ID or name; otherwise the first qualifying ID and the chosen name, the ID being 9 to 12 digits and the name trimmed, non-empty and holding a letter |
| Cedula.NotBothFields | frontend/app.js:119-130 | a segment with a letter is never taken as the ID |
| Cedula.ParseRendered | frontend/app.js:110-137 | a payload written as an ID, a newline and a name parses back to exactly that ID and name |
| Cedula.XorTwice | frontend/app.js:153 | XOR with the same key byte twice gives the input back |
| Cedula.UnmaskSelfInverse | frontend/app.js:148-155 | unmasking twice with the cycling key gives the codes back |
| Cedula.CharOf | frontend/app.js:157-162 | the low 16 bits become the character with that code when they are an ASCII letter or digit, and a space otherwise |
| Cedula.Decoded | frontend/app.js:142-165 | no input gives ""; the output is no longer than the input and is clean text: trimmed, single-spaced, only ASCII letters, digits and spaces |
| Cedula.DecodeCedulaCR | frontend/app.js:142-165 | the loop with the wrapping key index computes exactly the decoded text |
| Cedula.CodeOf | frontend/app.js:217 | `charCodeAt(0)` is the code point below U+10000 and a high surrogate above it |
| Cedula.DecodeMasked | frontend/app.js:142-165 | clean text masked with the key decodes back to itself |
| Cedula.CleanParts | frontend/app.js:112-116 | decoded text splits into at most one segment, itself |
| Cedula.HandleScan | frontend/app.js:184-225 | a direct parse that finds something wins; otherwise the scanner's bytes, or without bytes the text's char codes, are decoded and parsed |
| Cedula.ParseCleanOneField | frontend/app.js:110-137 | parsing decoded text never yields both an ID and a name |
| Cedula.ParseCleanName | frontend/app.js:110-137 | decoded text that holds a letter is read whole as the name, with no ID |
| Cedula.FallbackOneField | frontend/app.js:206-225 | the XOR fallback never yields both an ID and a name |
| Cedula.SpacedPairIsName | frontend/app.js:110-137 | an ID, a space and a name parse as a name (the whole text) with no ID |
| Cedula.FallbackSpacedPair | frontend/app.js:209-224 | bytes decoding to an ID, a space and a name give the whole text as the name and no ID |
| Cedula.SpacedExample | frontend/app.js:110-137 | "987654321 MARIA GOMEZ" is read as a name with no ID |
| Session.Without | frontend/app.js:78 | the filtered list keeps exactly the entries other than the destination |
| Session.PushDestino | frontend/app.js:74-79 | an empty destination changes nothing; otherwise it is first, appears nowhere else, the others follow in order, and the list is cut to 10 |
| Session.PushDestinoIdempotent | frontend/app.js:74-79 | pushing the same destination twice is pushing it once |
| Session.PushDestinoDistinct | frontend/app.js:74-79 | a list without repeats stays without repeats |
| Session.SuggestDirection | frontend/app.js:336-341 | "salida" exactly when the newest event found is an entry, "entrada" otherwise |
| Session.SuggestAfterLookup | frontend/app.js:331-343 | a failed history request leaves the toggle as it was |
| Session.SuggestionAlternates | frontend/app.js:336-341 | registering the suggested direction flips the next suggestion |
| Session.DirectionQueryIsContainsSearch | frontend/app.js:333-335 | the history request has no time or type clause: its filter is the seven-field contains search, and in that filter the first literal reads back the sanitised ID (when it has no backslash), followed by the `cedula` field reference, so an ID that merely contains the looked-up one also matches |
| Registration.CachedVehicle | frontend/app.js:495-497 | the cache lookup finds the first cached vehicle with that plate, whoever owns it, and finds none only when no cached vehicle has it |
| Registration.IdLink | backend/routes/eventos.js:87-89 | a vehicle id becomes a link exactly when it sanitises to non-empty |
| Registration.ResolveVehicle | frontend/app.js:493-507 | no plate: nothing is sent; a cached plate: that vehicle, nothing sent; otherwise one vehicle POST, after which the new vehicle is at the front of the cache and in the table; persons, events and the queue are untouched |
| Registration.RegisterEvent | frontend/app.js:477-521 | no answer changes nothing; a registration appends exactly one event, linked to the saved person, whose ID and name are the payload's; the event carries the payload's destination, its direction (default "entrada") and method (default "manual"), the attempt's id and the clock's time; the vehicle link comes from the cache or from the newly created vehicle |
| Registration.SaveEvent | frontend/app.js:509-520 | the event is posted only after the vehicle step succeeded and enough requests were answered, and it is saved exactly when the person link and destination are non-empty; the saved event holds the person link, the destination, the payload's direction (default "entrada") and method (default "manual"), the vehicle link, the new id and the clock's time, and no text copies |
| Registration.SavedPersonHasId | frontend/app.js:485-491 | the person a successful POST returns has a usable id |
| Registration.AnsweredValidPayloadRegisters | frontend/app.js:477-521 | a valid payload with every request answered is registered: no route rejects what the form sends |
| Registration.ValidVehicleStep | frontend/app.js:494-506 | with two requests answered, the vehicle step of a valid payload succeeds |
| Registration.SamePlateSharesVehicle | frontend/app.js:494-506 | a second registration with the same plate reuses the first one's vehicle, whoever the second person is, and writes no vehicle |
| Registration.EnqueueOffline | frontend/app.js:523-529 | the item is added at the back and the rest of the queue is unchanged |
| Registration.Survivors | frontend/app.js:534-542 | the kept items are a sub-list: all of them when every attempt fails, none when none fails |
| Registration.Advance | frontend/app.js:535-541 | one more registration adds one outcome and keeps the earlier ones; an unanswered one changes nothing and counts as failed |
| Registration.Replay | frontend/app.js:535-541 | one outcome per item; when no request is answered, nothing changes and every item failed |
| Registration.QuietFlush | frontend/app.js:531-551 | a flush in which nothing is answered changes nothing and keeps the whole queue |
| Registration.FlushOffline | frontend/app.js:531-551 | nothing happens offline or with an empty queue; otherwise every item is registered in order, and the queue becomes exactly the failed items, in order |
| Registration.FlushQueue | frontend/app.js:533-542 | the loop computes the sequential replay and collects exactly the failed items |
| Registration.CedulaInput | frontend/app.js:405 | the ID is exactly the typed characters other than whitespace, in order, so it has no whitespace at all |
| Registration.CheckForm | frontend/app.js:404-442 | invalid exactly when ID, name or destination is empty, ID/name checked first; a valid form gives a payload the routes accept, "escaneo" exactly when the remembered person has the typed ID, and the upper-cased plate only with a vehicle |
| Registration.FormPayload | frontend/app.js:430-442 | the payload carries the trimmed inputs, the direction from the toggle, the method from the remembered person, and a plate only with a vehicle |
| Registration.PayloadValid | frontend/app.js:405-409 | trimmed non-empty fields and a trimmed upper-cased plate pass the validation of all three routes |
| Registration.FormPlateNormalised | frontend/app.js:409 | the plate the form sends is already in the form the vehicle route stores |
| Registration.SubmitAndRefresh | frontend/app.js:444-456 | the refresh started after queueing offline or after a successful online registration first flushes the queue: offline nothing more changes, and after a registration the queued items are replayed behind it, keeping exactly the failed ones |
| Registration.Submit | frontend/app.js:404-462 | an invalid form only shows its message; otherwise the destination is pushed, and the payload is queued offline (clearing the form) or registered online (clearing on success, error message and state kept on failure) |
| Registration.AnsweredSubmitRegisters | frontend/app.js:444-462 | a valid form submitted online with every request answered shows no error |

## Left out

- HTTP transport, Express routing, status codes and the Airtable client (`backend/airtable.js`, `backend/server.js`) are modelled only by their effect. A route returns a `Reply`: the response and the table afterwards. A thrown request is the `Failed` outcome of an `Attempt`.
- Formula evaluation is the store's job, so a listing is modelled as the `Query` it sends. The lookups whose result depends on what a formula matches are modelled by the match their formula is meant to express, listed below.
- Personas.FindByCedula: `{cedula}="c"` is taken to match exactly the records whose ID equals `c`. The store's own comparison rules and a `c` holding a double quote (see "## Findings") are not modelled.
- Personas.GetPersona: rests on the exact-match lookup of `Personas.FindByCedula`.
- Personas.PostPersona: rests on the exact-match lookup of `Personas.FindByCedula`.
- Personas.PostKeepsCedulasUnique: rests on the exact-match lookup of `Personas.FindByCedula`.
- Personas.SecondPostUpdates: rests on the exact-match lookup of `Personas.FindByCedula`.
- Vehiculos.ResolveOwner: rests on the exact-match lookup of `Personas.FindByCedula`.
- Vehiculos.FindVehiculo: the plate half is taken as exact equality, and `FIND(id, ARRAYJOIN(links))` as "the id is among the links". A record id found as a substring of the joined links is not modelled.
- Vehiculos.PostVehiculo: rests on the lookup of `Vehiculos.FindVehiculo`.
- Vehiculos.PostKeepsPlatePerOwnerUnique: rests on the lookup of `Vehiculos.FindVehiculo`.
- Formula.AirtableEq: escapes `"` as intended, unlike the source. The source's clause is `Formula.AirtableEqAsWritten`. The two agree for values without a double quote (`Formula.QuoteFreeAgrees`). The read-back holds only for values without a backslash.
- Formula.AirtableContains: escapes `"` as intended, unlike the source. The source's clause is `Formula.AirtableContainsAsWritten`. The two agree for values without a double quote (`Formula.QuoteFreeAgrees`). The read-back holds only for values without a backslash.
- Personas.SearchPersonas: built with the intended quoting. For a query without a double quote this is the source's filter (`Personas.EitherContainsAsSent`); for one with a quote the source sends the broken clause of "## Findings".
- Personas.EitherContains: built with the intended quoting. For a term without a double quote it is the source's clause (`Personas.EitherContainsAsSent`).
- Vehiculos.PlateOwnerFilter: built with the intended quoting. For a plate without a double quote it is the source's filter (`Vehiculos.PlateOwnerFilterAsSent`).
- Vehiculos.ListVehiculos: built with the intended quoting. For a plate without a double quote it is the source's filter (`Vehiculos.PlateOwnerFilterAsSent`).
- Vehiculos.SearchVehiculos: built with the intended quoting. For a query without a double quote it is the source's filter (`Vehiculos.SearchVehiculosAsSent`).
- Eventos.SearchLines: built with the intended quoting. For a term without a double quote each line is the source's (`Eventos.SearchLinesAsSent`).
- Eventos.SearchFormula: built from `Eventos.SearchLines`, so it has the same quoting.
- Eventos.EventoClauses: built with the intended quoting. For values without a double quote the direction clause is the source's (`Eventos.TipoClauseAsSent`) and so are the search lines (`Eventos.SearchLinesAsSent`).
- Eventos.ListEventos: combines `Eventos.EventoClauses`, so it has the same quoting.
- Session.DirectionQueryIsContainsSearch: the search is built with the intended quoting. For an ID without a double quote it is the source's (`Eventos.SearchLinesAsSent`).
- Vehiculos.OwnerClause: the record id is spliced into the formula without any quoting, exactly as the source does. No read-back property is stated.
- The DOM, the camera and scanner library, `localStorage`, toasts, `renderDestinos`, `fillFromScan` and the typed-ID lookup with its debounce and timers are not modelled. They are display and I/O.
- `refreshLive` first awaits `flushOffline` and then fetches and renders the live list. The flush is modelled: after a submit by `Registration.SubmitAndRefresh`, and on its own by `Registration.FlushOffline`. The fetch and rendering are display. The refreshes started by the 12-second timer and by typing in the live search are not composed with anything; each is one `Registration.FlushOffline`.
- Registration.Submit: does not include the flush that the refresh after it starts; `Registration.SubmitAndRefresh` composes the two.
- Asynchrony is not modelled. `suggestSalidaIfNeeded` and the flush are not awaited by their callers, so they can interleave; the model runs each registration to completion in order. One consequence is out of scope: an item queued while a flush is awaiting the network is overwritten when the flush assigns the kept items to the queue.
- Request fields are strings or absent. JSON numbers, arrays and objects that `String(x)` would turn into text are not modelled.
- Cedula.NameIndex: lengths are counted in code points, while JavaScript's `length` counts UTF-16 units. The two differ only for names holding characters beyond U+FFFF.
- Text.Collapse: its own contract states the shape of the result and that the non-whitespace characters are kept in order; that each run becomes one space in its own place is stated by the lemma `Text.CollapseRunInPlace` rather than by the contract.
- Text.RemoveSpaces: its own contract does not fix the order of the kept characters, because that equation made every proof that mentions an ID cost more. `Text.RemoveSpacesIsFilter` and `Text.RemoveSpacesAppend` state it.
- Text.ToUpper: covers ASCII and the Latin-1 lower-case letters only. Full Unicode case mapping (`ß` to `SS`, `ÿ`, Greek and others) is not modelled.
- Text.IsSpace follows the ECMAScript `\s` class as a fixed character list.
- `new Date()`, `Date.now()` and `toISOString` are parameters: `now`, `ts` and `iso`.
- The network is the `Attempt` oracle. Which requests fail is an input, not modelled behaviour.
- Registration.RegisterEvent: a request that gets no answer is taken not to have reached the server. A request the server carried out but whose answer was lost is not modelled. A later replay of that item would then write a second event (or update the person again), and that duplicate is out of scope.
- Registration.QuietFlush: rests on the same assumption: an unanswered request wrote nothing.
- Registration.FlushOffline: rests on the same assumption. A failed item is kept in the queue even if the server already saved part of it.
- Registration.Survivors: states its bounds and extreme cases. That the kept items are exactly the failed ones, in order, is stated through `Registration.FlushQueue` and `Registration.FlushOffline`.
- The "Pendientes sincronizados" toast after a fully successful flush and the success toasts of the submit handler are display only.
- Cedula.HandleScan: where the scanner result comes from (`getText()` or `.text`, `getRawBytes()` or `.rawBytes`) is not modelled. The function receives the text and bytes already extracted, with `null` read as empty.

## Findings

| source | as written | input that shows it | evidently intended | confidence | as-written member | corrected member |
|---|---|---|---|---|---|---|
| backend/utils.js:14-15 | `String(value).replace(/"/g, '\"')` replaces each `"` with the one-character string `"` (the JavaScript literal `'\"'` is just a quote), so the value goes into the formula unescaped | a search or ID value `a"b`: the clause becomes `{cedula}="a"b"`, whose literal reads back as `a` and leaves `b"` as formula text | each `"` escaped as `\"`, so the literal reads back as exactly the value | high; not executed | Formula.AsWrittenQuoteBreaksOut | Formula.QuoteRoundTrip |

=== FILE: basics.dfy ===
/** Small generic building blocks shared by every other module: an optional
    value (JavaScript's `null`/`undefined` versus a value), the first element of
    a table satisfying a predicate (a store lookup with `maxRecords: 1`),
    order-preserving filtering and string joining. */
module Basics {

  datatype Option<+T> = None | Some(value: T)

  /** Index of the first element of `s` satisfying `p`, or None when there is none. */
  function First<T>(s: seq<T>, p: T -> bool): (r: Option<nat>)
    ensures r.None? <==> forall k :: 0 <= k < |s| ==> !p(s[k])
    ensures r.Some? ==> r.value < |s| && p(s[r.value])
    ensures r.Some? ==> forall k :: 0 <= k < r.value ==> !p(s[k])
    decreases |s|
  {
    if |s| == 0 then None
    else
      var prefix := First(s[..|s| - 1], p);
      if prefix.Some? then prefix
      else if p(s[|s| - 1]) then Some(|s| - 1)
      else None
  }

  /** The elements of `s` satisfying `p`, in their original order (`Array.prototype.filter`). */
  function Keep<T>(s: seq<T>, p: T -> bool): (r: seq<T>)
    ensures |r| <= |s|
    ensures forall i :: 0 <= i < |r| ==> r[i] in s && p(r[i])
    ensures forall i :: 0 <= i < |s| && p(s[i]) ==> s[i] in r
    decreases |s|
  {
    if |s| == 0 then []
    else if p(s[0]) then [s[0]] + Keep(s[1..], p)
    else Keep(s[1..], p)
  }

  /** Concatenation is associative. */
  lemma Assoc<T>(x: seq<T>, y: seq<T>, z: seq<T>)
    ensures x + (y + z) == (x + y) + z
  {
  }

  /** Filtering distributes over concatenation, so relative order is kept. */
  lemma {:induction false} KeepAppend<T>(a: seq<T>, b: seq<T>, p: T -> bool)
    ensures Keep(a + b, p) == Keep(a, p) + Keep(b, p)
    decreases |a|
  {
    if |a| == 0 {
      assert a + b == b;
    } else {
      assert (a + b)[1..] == a[1..] + b;
      KeepAppend(a[1..], b, p);
    }
  }

  /** Filtering keeps nothing when no element passes. */
  lemma {:induction false} KeepNone<T>(s: seq<T>, p: T -> bool)
    requires forall i :: 0 <= i < |s| ==> !p(s[i])
    ensures Keep(s, p) == []
    decreases |s|
  {
    if |s| > 0 {
      KeepNone(s[1..], p);
    }
  }

  /** Filtering drops nothing when every element passes. */
  lemma {:induction false} KeepAll<T>(s: seq<T>, p: T -> bool)
    requires forall i :: 0 <= i < |s| ==> p(s[i])
    ensures Keep(s, p) == s
    decreases |s|
  {
    if |s| > 0 {
      KeepAll(s[1..], p);
      assert [s[0]] + s[1..] == s;
    }
  }

  /** Filtering a list without repeats gives a list without repeats. */
  lemma {:induction false} KeepDistinct<T>(s: seq<T>, p: T -> bool)
    requires Distinct(s)
    ensures Distinct(Keep(s, p))
    decreases |s|
  {
    if |s| > 0 {
      KeepDistinct(s[1..], p);
      var rest := Keep(s[1..], p);
      if p(s[0]) {
        var r := [s[0]] + rest;
        forall i, j | 0 <= i < j < |r| ensures r[i] != r[j] {
          if i == 0 {
            assert r[j] == rest[j - 1];
          } else {
            assert r[i] == rest[i - 1] && r[j] == rest[j - 1];
          }
        }
      }
    }
  }

  /** No element occurs twice. */
  predicate Distinct<T(==)>(s: seq<T>) {
    forall i, j :: 0 <= i < j < |s| ==> s[i] != s[j]
  }

  /** `Array.prototype.join(sep)` on strings. */
  function Join(xs: seq<string>, sep: string): (r: string)
    ensures |xs| == 1 ==> r == xs[0]
    ensures |xs| == 0 ==> r == ""
    ensures |xs| > 0 ==> |r| >= |xs[0]| && r[..|xs[0]|] == xs[0]
    ensures |xs| > 0 ==> |r| >= |xs[|xs| - 1]| && r[|r| - |xs[|xs| - 1]|..] == xs[|xs| - 1]
    decreases |xs|
  {
    if |xs| == 0 then ""
    else if |xs| == 1 then xs[0]
    else
      var tail := Join(xs[1..], sep);
      var r := xs[0] + sep + tail;
      assert r[|r| - |tail|..] == tail;
      r
  }

  /** `part` occurs in `whole` starting at index `k`. */
  predicate At<T(==)>(part: seq<T>, whole: seq<T>, k: int) {
    0 <= k <= |whole| - |part| && whole[k..k + |part|] == part
  }

  /** `part` occurs somewhere in `whole`. */
  predicate Within<T(==)>(part: seq<T>, whole: seq<T>) {
    exists k :: 0 <= k <= |whole| && At(part, whole, k)
  }

  /** An occurrence survives putting text on either side. */
  lemma WithinExtend<T>(part: seq<T>, pre: seq<T>, mid: seq<T>, post: seq<T>)
    requires Within(part, mid)
    ensures Within(part, pre + mid + post)
  {
    var k :| 0 <= k <= |mid| && At(part, mid, k);
    assert 0 <= k <= |mid| - |part| && mid[k..k + |part|] == part;
    var w := pre + mid + post;
    assert w[|pre| + k..|pre| + k + |part|] == mid[k..k + |part|];
    assert At(part, w, |pre| + k);
  }

  /** Every element of a join occurs in the joined text. */
  lemma {:induction false} JoinHolds(xs: seq<string>, sep: string, i: nat)
    requires i < |xs|
    ensures Within(xs[i], Join(xs, sep))
    decreases |xs|
  {
    var r := Join(xs, sep);
    if i == 0 {
      assert |r| >= |xs[0]| && r[..|xs[0]|] == xs[0];
      assert At(xs[0], r, 0);
    } else {
      JoinHolds(xs[1..], sep, i - 1);
      assert xs[1..][i - 1] == xs[i];
      assert |xs| > 1;
      WithinExtend(xs[i], xs[0] + sep, Join(xs[1..], sep), []);
      assert xs[0] + sep + Join(xs[1..], sep) + [] == r;
    }
  }
}

=== FILE: cedula.dfy ===
/** The ID-card scan pipeline of the registration form (frontend/app.js): the
    heuristic parser that pulls a national ID number and a name out of a
    barcode payload, the repeating-key XOR de-obfuscation of Costa Rican ID
    barcodes, and the two-stage decoding of one scanner result. */
module Cedula {
  import opened Basics
  import opened Text

  /** What the parser recognised: an ID, a name, or both. */
  datatype Scan = Scan(cedula: Option<string>, nombre: Option<string>)

  // ---------------------------------------------------------------------------
  // Payload parsing
  // ---------------------------------------------------------------------------

  /** Every NUL character becomes a space. */
  function NulToSpace(s: string): (r: string)
    ensures |r| == |s|
    ensures forall i :: 0 <= i < |s| ==> r[i] == if s[i] == '\0' then ' ' else s[i]
  {
    seq(|s|, i requires 0 <= i < |s| => if s[i] == '\0' then ' ' else s[i])
  }

  /** Each part trimmed. */
  function TrimEach(ps: seq<string>): (r: seq<string>)
    ensures |r| == |ps|
    ensures forall i :: 0 <= i < |ps| ==> r[i] == Trim(ps[i])
  {
    seq(|ps|, i requires 0 <= i < |ps| => Trim(ps[i]))
  }

  /** Trimming cannot introduce a separator. */
  lemma TrimKeepsNoBreak(s: string)
    requires NoBreak(s)
    ensures NoBreak(Trim(s))
  {
    var k := TrimOffset(s);
    TrimAt(s);
    var t := Trim(s);
    forall i | 0 <= i < |t| ensures !IsBreak(t[i]) {
      assert t[i] == s[k + i];
    }
  }

  lemma TrimEachNoBreak(ps: seq<string>)
    requires forall k :: 0 <= k < |ps| ==> NoBreak(ps[k])
    ensures forall k :: 0 <= k < |TrimEach(ps)| ==> NoBreak(TrimEach(ps)[k]) && Trimmed(TrimEach(ps)[k])
  {
    forall k | 0 <= k < |ps| ensures NoBreak(TrimEach(ps)[k]) {
      TrimKeepsNoBreak(ps[k]);
    }
  }

  /** The segments of a payload: NULs read as spaces, the whole text trimmed,
      split on newline, pipe and carriage return, each piece trimmed, and the
      empty pieces dropped. */
  function Parts(text: string): (ps: seq<string>)
    ensures forall i :: 0 <= i < |ps| ==> ps[i] != "" && Trimmed(ps[i]) && NoBreak(ps[i])
  {
    var split := Split(Trim(NulToSpace(text)));
    TrimEachNoBreak(split);
    Keep(TrimEach(split), Truthy)
  }

  predicate NoNul(s: string) {
    forall i :: 0 <= i < |s| ==> s[i] != '\0'
  }

  /** Joining NUL-free parts with a separator other than NUL gives NUL-free text. */
  lemma {:induction false} JoinNoNul(ps: seq<string>, c: char)
    requires c != '\0'
    requires forall k :: 0 <= k < |ps| ==> NoNul(ps[k])
    ensures NoNul(Join(ps, [c]))
    decreases |ps|
  {
    if |ps| > 1 {
      JoinNoNul(ps[1..], c);
      var rest := Join(ps[1..], [c]);
      var j := Join(ps, [c]);
      assert j == ps[0] + [c] + rest;
      forall i | 0 <= i < |j| ensures j[i] != '\0' {
        if i < |ps[0]| {
          assert j[i] == ps[0][i];
        } else if i > |ps[0]| {
          assert j[i] == rest[i - |ps[0]| - 1];
        }
      }
    }
  }

  /** Splitting inverts joining: non-empty, trimmed parts without separators or
      NUL, joined by newline, pipe or carriage return, come back as they were. */
  lemma PartsJoin(ps: seq<string>, c: char)
    requires IsBreak(c)
    requires forall k :: 0 <= k < |ps| ==> ps[k] != "" && Trimmed(ps[k]) && NoBreak(ps[k]) && NoNul(ps[k])
    ensures Parts(Join(ps, [c])) == ps
  {
    var text := Join(ps, [c]);
    if |ps| == 0 {
      PartsOfEmpty();
    } else {
      CleanJoin(ps, c);
    }
  }

  lemma CleanJoin(ps: seq<string>, c: char)
    requires IsBreak(c) && |ps| > 0
    requires forall k :: 0 <= k < |ps| ==> ps[k] != "" && Trimmed(ps[k]) && NoBreak(ps[k]) && NoNul(ps[k])
    ensures Trim(NulToSpace(Join(ps, [c]))) == Join(ps, [c])
    ensures Split(Join(ps, [c])) == ps
    ensures Keep(TrimEach(ps), Truthy) == ps
  {
    JoinedText(ps, c);
    SplitJoin(ps, c);
    KeptParts(ps);
  }

  lemma JoinedText(ps: seq<string>, c: char)
    requires IsBreak(c) && |ps| > 0
    requires forall k :: 0 <= k < |ps| ==> ps[k] != "" && Trimmed(ps[k]) && NoNul(ps[k])
    ensures Trim(NulToSpace(Join(ps, [c]))) == Join(ps, [c])
  {
    var text := Join(ps, [c]);
    JoinedClean(ps, c);
    NulFree(text);
    TrimOfTrimmed(text);
  }

  lemma KeptParts(ps: seq<string>)
    requires forall k :: 0 <= k < |ps| ==> ps[k] != "" && Trimmed(ps[k])
    ensures Keep(TrimEach(ps), Truthy) == ps
  {
    TrimEachTrimmed(ps);
    KeepAll(ps, Truthy);
  }

  lemma NulFree(s: string)
    requires NoNul(s)
    ensures NulToSpace(s) == s
  {
  }

  lemma PartsOfEmpty()
    ensures Parts("") == []
  {
    assert NulToSpace("") == "" && Trim("") == "";
    assert Split("") == [""];
    assert TrimEach([""]) == [""];
    assert Keep([""], Truthy) == [];
  }

  /** Joined non-empty trimmed NUL-free parts are trimmed and NUL-free. */
  lemma JoinedClean(ps: seq<string>, c: char)
    requires IsBreak(c) && |ps| > 0
    requires forall k :: 0 <= k < |ps| ==> ps[k] != "" && Trimmed(ps[k]) && NoNul(ps[k])
    ensures NoNul(Join(ps, [c])) && Trimmed(Join(ps, [c]))
  {
    JoinNoNul(ps, c);
    EndsTrimmed(Join(ps, [c]), ps[0], ps[|ps| - 1]);
  }

  /** Text that starts with one trimmed non-empty string and ends with another is trimmed. */
  lemma EndsTrimmed(text: string, first: string, last: string)
    requires first != "" && last != "" && Trimmed(first) && Trimmed(last)
    requires |text| >= |first| && text[..|first|] == first
    requires |text| >= |last| && text[|text| - |last|..] == last
    ensures Trimmed(text)
  {
    assert text[0] == first[0];
    assert text[|text| - 1] == text[|text| - |last|..][|last| - 1];
  }

  lemma TrimEachTrimmed(ps: seq<string>)
    requires forall k :: 0 <= k < |ps| ==> Trimmed(ps[k])
    ensures TrimEach(ps) == ps
  {
    forall k | 0 <= k < |ps| ensures Trim(ps[k]) == ps[k] {
      TrimOfTrimmed(ps[k]);
    }
  }

  /** Nine to twelve ASCII digits and nothing else. */
  predicate IsCedulaDigits(d: string) {
    9 <= |d| <= 12 && forall i :: 0 <= i < |d| ==> IsDigit(d[i])
  }

  /** A segment is taken as the ID when deleting its whitespace leaves 9 to 12 digits. */
  predicate CedulaSegment(p: string) {
    IsCedulaDigits(RemoveSpaces(p))
  }

  /** The ID loop: the first qualifying segment, with its whitespace deleted. */
  function FindCedula(ps: seq<string>): (r: Option<string>)
    ensures r.None? <==> forall k :: 0 <= k < |ps| ==> !CedulaSegment(ps[k])
    ensures r.Some? ==> IsCedulaDigits(r.value)
  {
    match First(ps, CedulaSegment)
    case None => None
    case Some(k) => Some(RemoveSpaces(ps[k]))
  }

  /** The ID is the first qualifying segment: every segment before it fails the test. */
  lemma FindCedulaIsFirst(ps: seq<string>, k: nat)
    requires k < |ps| && CedulaSegment(ps[k])
    requires forall j :: 0 <= j < k ==> !CedulaSegment(ps[j])
    ensures FindCedula(ps) == Some(RemoveSpaces(ps[k]))
  {
    var f := First(ps, CedulaSegment);
    assert f.Some? && f.value == k;
  }

  /** A letter for the name test: ASCII letters, the acute-accented vowels and N with tilde, in either case. */
  predicate IsNameLetter(c: char) {
    || 'A' <= c <= 'Z' || 'a' <= c <= 'z'
    || c == '\U{C1}' || c == '\U{C9}' || c == '\U{CD}' || c == '\U{D3}' || c == '\U{DA}' || c == '\U{D1}'
    || c == '\U{E1}' || c == '\U{E9}' || c == '\U{ED}' || c == '\U{F3}' || c == '\U{FA}' || c == '\U{F1}'
  }

  predicate HasLetter(p: string) {
    exists i :: 0 <= i < |p| && IsNameLetter(p[i])
  }

  /** Position of the segment the stable sort by decreasing length puts first
      among those holding a letter: a longest one, and the earliest of equals. */
  function NameIndex(ps: seq<string>): (r: Option<nat>)
    ensures r.None? <==> forall j :: 0 <= j < |ps| ==> !HasLetter(ps[j])
    ensures r.Some? ==> r.value < |ps| && HasLetter(ps[r.value])
    ensures r.Some? ==> forall j :: 0 <= j < |ps| && HasLetter(ps[j]) ==> |ps[j]| <= |ps[r.value]|
    ensures r.Some? ==> forall j :: 0 <= j < r.value && HasLetter(ps[j]) ==> |ps[j]| < |ps[r.value]|
    decreases |ps|
  {
    if |ps| == 0 then None
    else
      var r := NameIndex(ps[..|ps| - 1]);
      var last := |ps| - 1;
      if !HasLetter(ps[last]) then r
      else if r.None? || |ps[last]| > |ps[r.value]| then Some(last)
      else r
  }

  /** The name loop: the chosen segment, if any segment holds a letter. */
  function FindName(ps: seq<string>): (r: Option<string>)
    ensures r.None? <==> forall j :: 0 <= j < |ps| ==> !HasLetter(ps[j])
    ensures r.Some? ==> HasLetter(r.value) && r.value in ps
  {
    match NameIndex(ps)
    case None => None
    case Some(k) => Some(ps[k])
  }

  /** The name is the earliest of the longest segments holding a letter. */
  lemma NameIsEarliestLongest(ps: seq<string>, k: nat)
    requires k < |ps| && HasLetter(ps[k])
    requires forall j :: 0 <= j < |ps| && HasLetter(ps[j]) ==> |ps[j]| <= |ps[k]|
    requires forall j :: 0 <= j < k && HasLetter(ps[j]) ==> |ps[j]| < |ps[k]|
    ensures FindName(ps) == Some(ps[k])
  {
    var n := NameIndex(ps);
    assert n.Some?;
    assert n.value == k;
  }

  /** `parseCedulaPayload`: nothing for empty text or when neither field is
      found; otherwise the first qualifying ID and the chosen name. */
  function ParseCedulaPayload(text: string): (r: Option<Scan>)
    ensures text == "" ==> r.None?
    ensures r.None? <==> text == "" || forall k :: 0 <= k < |Parts(text)| ==>
                                          !CedulaSegment(Parts(text)[k]) && !HasLetter(Parts(text)[k])
    ensures r.Some? ==> r.value.cedula == FindCedula(Parts(text)) && r.value.nombre == FindName(Parts(text))
    ensures r.Some? && r.value.cedula.Some? ==> IsCedulaDigits(r.value.cedula.value)
    ensures r.Some? && r.value.nombre.Some? ==>
              var n := r.value.nombre.value;
              n != "" && Trimmed(n) && NoBreak(n) && HasLetter(n)
  {
    if text == "" then None
    else
      var ps := Parts(text);
      var cedula := FindCedula(ps);
      var nombre := FindName(ps);
      if cedula.None? && nombre.None? then None else Some(Scan(cedula, nombre))
  }

  /** Deleting whitespace keeps every other character. */
  lemma {:induction false} RemoveSpacesKeeps(s: string, i: nat)
    requires i < |s| && !IsSpace(s[i])
    ensures s[i] in RemoveSpaces(s)
    decreases |s|
  {
    if i > 0 {
      RemoveSpacesKeeps(s[1..], i - 1);
      assert s[1..][i - 1] == s[i];
    }
  }

  /** No segment can be both the ID and the name: a letter survives the
      whitespace deletion and is not a digit. */
  lemma NotBothFields(p: string)
    requires HasLetter(p)
    ensures !CedulaSegment(p)
  {
    var i :| 0 <= i < |p| && IsNameLetter(p[i]);
    RemoveSpacesKeeps(p, i);
  }

  /** What being nine to twelve digits rules out. */
  lemma DigitsFacts(cedula: string)
    requires IsCedulaDigits(cedula)
    ensures NoBreak(cedula) && NoSpace(cedula) && Trimmed(cedula) && !HasLetter(cedula)
    ensures CedulaSegment(cedula) && RemoveSpaces(cedula) == cedula
  {
    assert forall i :: 0 <= i < |cedula| ==> IsDigit(cedula[i]);
  }

  /** Both segments of the ID, a newline and the name survive the split. */
  lemma RenderedSplit(cedula: string, nombre: string)
    requires IsCedulaDigits(cedula)
    requires nombre != "" && Trimmed(nombre) && NoBreak(nombre)
    requires forall i :: 0 <= i < |nombre| ==> nombre[i] != '\0'
    ensures Split(Trim(NulToSpace(cedula + "\n" + nombre))) == [cedula, nombre]
  {
    var text := cedula + "\n" + nombre;
    DigitsFacts(cedula);
    assert NulToSpace(text) == text;
    TrimOfTrimmed(text);
    SplitJoin([cedula, nombre], '\n');
    assert Join([cedula, nombre], "\n") == text;
  }

  lemma KeepPair(a: string, b: string)
    requires a != "" && b != ""
    ensures Keep([a, b], Truthy) == [a, b]
  {
    assert [a, b][1..] == [b];
    assert [b][1..] == [];
  }

  lemma TrimEachPair(a: string, b: string)
    requires Trimmed(a) && Trimmed(b)
    ensures TrimEach([a, b]) == [a, b]
  {
    var t := TrimEach([a, b]);
    assert |t| == 2 && t[0] == a && t[1] == b;
  }

  /** The segments of the ID, a newline and the name. */
  lemma RenderedParts(cedula: string, nombre: string)
    requires IsCedulaDigits(cedula)
    requires nombre != "" && Trimmed(nombre) && NoBreak(nombre)
    requires forall i :: 0 <= i < |nombre| ==> nombre[i] != '\0'
    ensures Parts(cedula + "\n" + nombre) == [cedula, nombre]
  {
    var split := Split(Trim(NulToSpace(cedula + "\n" + nombre)));
    RenderedSplit(cedula, nombre);
    assert split == [cedula, nombre];
    DigitsFacts(cedula);
    TrimEachPair(cedula, nombre);
    KeepPair(cedula, nombre);
  }

  /** A payload written as the ID, a newline and the name parses back to both. */
  lemma ParseRendered(cedula: string, nombre: string)
    requires IsCedulaDigits(cedula)
    requires nombre != "" && Trimmed(nombre) && NoBreak(nombre) && HasLetter(nombre)
    requires forall i :: 0 <= i < |nombre| ==> nombre[i] != '\0'
    ensures ParseCedulaPayload(cedula + "\n" + nombre) == Some(Scan(Some(cedula), Some(nombre)))
  {
    RenderedParts(cedula, nombre);
    PairFields(cedula, nombre);
  }

  lemma PairFields(cedula: string, nombre: string)
    requires IsCedulaDigits(cedula) && HasLetter(nombre)
    ensures FindCedula([cedula, nombre]) == Some(cedula)
    ensures FindName([cedula, nombre]) == Some(nombre)
  {
    PairCedula(cedula, nombre);
    PairName(cedula, nombre);
  }

  lemma PairName(cedula: string, nombre: string)
    requires IsCedulaDigits(cedula) && HasLetter(nombre)
    ensures FindName([cedula, nombre]) == Some(nombre)
  {
    assert !HasLetter(cedula) by {
      assert forall i :: 0 <= i < |cedula| ==> IsDigit(cedula[i]);
    }
    NameIsEarliestLongest([cedula, nombre], 1);
  }

  lemma PairCedula(cedula: string, nombre: string)
    requires IsCedulaDigits(cedula)
    ensures FindCedula([cedula, nombre]) == Some(cedula)
  {
    DigitsFacts(cedula);
    FindCedulaIsFirst([cedula, nombre], 0);
  }

  // ---------------------------------------------------------------------------
  // XOR de-obfuscation
  // ---------------------------------------------------------------------------

  /** A byte of the scanner's raw result. */
  type Byte = x: int | 0 <= x < 0x100

  /** A UTF-16 code unit. */
  type Code = x: int | 0 <= x < 0x1_0000

  /** The bitwise exclusive or `a ^ b` of two non-negative numbers. */
  function Xor(a: nat, b: nat): nat
    decreases a + b
  {
    if a == 0 && b == 0 then 0
    else 2 * Xor(a / 2, b / 2) + (a % 2 + b % 2) % 2
  }

  lemma XorStep(a: nat, b: nat)
    ensures Xor(a, b) == 2 * Xor(a / 2, b / 2) + (a % 2 + b % 2) % 2
  {
  }

  lemma Halves(q: nat, r: nat)
    requires r < 2
    ensures (2 * q + r) / 2 == q && (2 * q + r) % 2 == r
  {
  }

  /** XOR with the same value twice gives the input back. */
  lemma {:induction false} XorTwice(a: nat, b: nat)
    ensures Xor(Xor(a, b), b) == a
    decreases a + b
  {
    if a != 0 || b != 0 {
      var h := Xor(a / 2, b / 2);
      var x := Xor(a, b);
      XorStep(a, b);
      Halves(h, (a % 2 + b % 2) % 2);
      assert x / 2 == h && x % 2 == (a % 2 + b % 2) % 2;
      XorTwice(a / 2, b / 2);
      assert Xor(h, b / 2) == a / 2;
      XorStep(x, b);
      assert Xor(x, b) == 2 * (a / 2) + ((a % 2 + b % 2) % 2 + b % 2) % 2;
      ParityCancels(a, b);
    }
  }

  lemma ParityCancels(a: nat, b: nat)
    ensures 2 * (a / 2) + ((a % 2 + b % 2) % 2 + b % 2) % 2 == a
  {
  }

  /** The published 17-entry table of `decodeCedulaCR`. */
  const Key: seq<nat> :=
    [0x27, 0x30, 0x04, 0xA0, 0x00, 0x0F, 0x93, 0x12, 0xA0, 0xD1, 0x22, 0xE0, 0x03, 0xD0, 0x00, 0xDF, 0x00]

  /** Code `i` XORed with key entry `i mod 17`. */
  function Unmask(codes: seq<nat>): (r: seq<nat>)
    ensures |r| == |codes|
    ensures forall i :: 0 <= i < |codes| ==> r[i] == Xor(codes[i], Key[i % |Key|])
  {
    seq(|codes|, i requires 0 <= i < |codes| => Xor(codes[i], Key[i % |Key|]))
  }

  /** XOR with the cycling key undoes itself. */
  lemma UnmaskSelfInverse(codes: seq<nat>)
    ensures Unmask(Unmask(codes)) == codes
  {
    forall i | 0 <= i < |codes| ensures Unmask(Unmask(codes))[i] == codes[i] {
      XorTwice(codes[i], Key[i % |Key|]);
    }
  }

  predicate IsAlnumCode(u: int) {
    (0x30 <= u <= 0x39) || (0x41 <= u <= 0x5A) || (0x61 <= u <= 0x7A)
  }

  /** The character of the low 16 bits of `c` when it is an ASCII letter or
      digit, a space otherwise. */
  function CharOf(c: nat): (ch: char)
    ensures IsAsciiAlnum(ch) <==> IsAlnumCode(c % 0x1_0000)
    ensures !IsAlnumCode(c % 0x1_0000) ==> ch == ' '
    ensures IsAlnumCode(c % 0x1_0000) ==> ch as int == c % 0x1_0000
  {
    var u := c % 0x1_0000;
    if IsAlnumCode(u) then u as char else ' '
  }

  function Render(codes: seq<nat>): (r: string)
    ensures |r| == |codes|
    ensures forall i :: 0 <= i < |codes| ==> r[i] == CharOf(codes[i])
  {
    seq(|codes|, i requires 0 <= i < |codes| => CharOf(codes[i]))
  }

  /** Every character an ASCII letter, an ASCII digit or a space. */
  predicate AlnumOrSpace(s: string) {
    forall i :: 0 <= i < |s| ==> IsAsciiAlnum(s[i]) || s[i] == ' '
  }

  /** Only letters, digits and single interior spaces. */
  predicate CleanText(s: string) {
    Trimmed(s) && SingleSpaced(s) && AlnumOrSpace(s)
  }

  /** Trimming single-spaced letters and spaces leaves clean text. */
  lemma TrimClean(s: string)
    requires SingleSpaced(s) && AlnumOrSpace(s)
    ensures CleanText(Trim(s))
  {
    TrimSlice(s);
    CleanSlice(s, TrimOffset(s), TrimOffset(s) + |Trim(s)|, Trim(s));
  }

  lemma CleanSlice(s: string, i: nat, j: nat, t: string)
    requires i <= j <= |s| && SingleSpaced(s) && AlnumOrSpace(s)
    requires t == s[i..j]
    ensures SingleSpaced(t) && AlnumOrSpace(t)
  {
    SingleSpacedSlice(s, i, j);
    SliceAlnumOrSpace(s, i, j);
  }

  lemma SliceAlnumOrSpace(s: string, i: nat, j: nat)
    requires i <= j <= |s| && AlnumOrSpace(s)
    ensures AlnumOrSpace(s[i..j])
  {
    forall k | 0 <= k < j - i ensures IsAsciiAlnum(s[i..j][k]) || s[i..j][k] == ' ' {
      assert s[i..j][k] == s[i + k];
    }
  }

  /** `decodeCedulaCR`: "" for no input; otherwise each code XORed with the
      cycling key, kept when it is an ASCII letter or digit and a space
      otherwise, whitespace runs collapsed to one space, and the ends trimmed. */
  function Decoded(codes: seq<nat>): (r: string)
    ensures |codes| == 0 ==> r == ""
    ensures |r| <= |codes|
    ensures CleanText(r)
  {
    if |codes| == 0 then ""
    else
      var out := Render(Unmask(codes));
      var collapsed := Collapse(out);
      assert AlnumOrSpace(collapsed) by {
        forall i | 0 <= i < |collapsed| ensures IsAsciiAlnum(collapsed[i]) || collapsed[i] == ' ' {
          if collapsed[i] != ' ' {
            var j :| 0 <= j < |out| && out[j] == collapsed[i];
          }
        }
      }
      TrimClean(collapsed);
      Trim(collapsed)
  }

  /** The key index wraps to 0 exactly when the position reaches a multiple of 17. */
  lemma WrapStep(i: nat)
    ensures (if i % 17 + 1 >= 17 then 0 else i % 17 + 1) == (i + 1) % 17
  {
  }

  lemma RenderUnmaskSnoc(codes: seq<nat>, i: nat)
    requires i < |codes|
    ensures Render(Unmask(codes[..i + 1])) == Render(Unmask(codes[..i])) + [CharOf(Xor(codes[i], Key[i % |Key|]))]
  {
    var a := Render(Unmask(codes[..i + 1]));
    var b := Render(Unmask(codes[..i])) + [CharOf(Xor(codes[i], Key[i % |Key|]))];
    assert |a| == |b|;
    forall k | 0 <= k < |a| ensures a[k] == b[k] {
      assert codes[..i + 1][k] == codes[k];
      if k < i {
        assert codes[..i][k] == codes[k];
      }
    }
  }

  /** The loop of `decodeCedulaCR`, with its wrapping key index. */
  method DecodeCedulaCR(codes: seq<nat>) returns (r: string)
    ensures r == Decoded(codes)
  {
    if |codes| == 0 {
      return "";
    }
    assert |Key| == 17;
    var index := 0;
    var out := "";
    for i := 0 to |codes|
      invariant index == i % |Key|
      invariant out == Render(Unmask(codes[..i]))
    {
      var decrypted := Xor(codes[i], Key[index]);
      WrapStep(i);
      index := index + 1;
      if index >= |Key| {
        index := 0;
      }
      RenderUnmaskSnoc(codes, i);
      out := out + [CharOf(decrypted)];
    }
    assert codes[..|codes|] == codes;
    r := Trim(Collapse(out));
  }

  /** The first UTF-16 code unit of one code point: the code point itself
      below U+10000, its high surrogate above. */
  function CodeOf(c: char): (u: Code)
    ensures c as int < 0x1_0000 ==> u == c as int
    ensures c as int >= 0x1_0000 ==> 0xD800 <= u < 0xDC00
  {
    if c as int < 0x1_0000 then c as int
    else 0xD800 + (c as int - 0x1_0000) / 0x400
  }

  /** The first UTF-16 code unit of each code point of the text, in order. */
  function CodesOf(text: string): (codes: seq<nat>)
    ensures |codes| == |text|
    ensures forall i :: 0 <= i < |text| ==> codes[i] == CodeOf(text[i])
  {
    seq(|text|, i requires 0 <= i < |text| => CodeOf(text[i]) as nat)
  }

  lemma CharOfCodeOf(c: char)
    requires IsAsciiAlnum(c) || c == ' '
    ensures CharOf(CodeOf(c)) == c
  {
  }

  /** Masking clean text with the key and decoding it gives the text back. */
  lemma DecodeMasked(p: string)
    requires CleanText(p)
    ensures Decoded(Unmask(CodesOf(p))) == p
  {
    if |p| > 0 {
      UnmaskSelfInverse(CodesOf(p));
      forall i | 0 <= i < |p| ensures Render(CodesOf(p))[i] == p[i] {
        CharOfCodeOf(p[i]);
      }
      assert Render(Unmask(Unmask(CodesOf(p)))) == p;
      CollapseOfSingleSpaced(p);
      TrimOfTrimmed(p);
    }
  }

  /** Decoded text is one segment: it holds no separator. */
  lemma CleanParts(d: string)
    requires CleanText(d)
    ensures Parts(d) == if d == "" then [] else [d]
  {
    var n := NulToSpace(d);
    assert n == d;
    TrimOfTrimmed(d);
    assert NoBreak(d);
    var split := Split(Trim(n));
    assert split == [d];
    var te := TrimEach(split);
    assert te == [d];
    assert Parts(d) == Keep(te, Truthy);
    assert [d][1..] == [];
  }

  // ---------------------------------------------------------------------------
  // The scan pipeline
  // ---------------------------------------------------------------------------

  /** `handleScanResult`: the raw text is parsed first; only when that finds
      nothing are the scanner's bytes (or, without bytes, the text's char
      codes) de-obfuscated and the result parsed again. */
  function HandleScan(rawText: string, rawBytes: seq<Byte>): (r: Option<Scan>)
    ensures ParseCedulaPayload(rawText).Some? ==> r == ParseCedulaPayload(rawText)
    ensures ParseCedulaPayload(rawText).None? && |rawBytes| > 0 ==>
              r == ParseCedulaPayload(Decoded(rawBytes))
    ensures ParseCedulaPayload(rawText).None? && |rawBytes| == 0 ==>
              r == ParseCedulaPayload(Decoded(CodesOf(rawText)))
  {
    var direct := ParseCedulaPayload(rawText);
    if direct.Some? then direct
    else
      var codes := if |rawBytes| > 0 then rawBytes else CodesOf(rawText);
      if |codes| == 0 then None else ParseCedulaPayload(Decoded(codes))
  }

  /** Parsing clean text finds at most one field: the whole text is a single
      segment, and no segment is both the ID and the name. */
  lemma ParseCleanOneField(d: string)
    requires CleanText(d)
    ensures var r := ParseCedulaPayload(d);
            r.None? || r.value.cedula.None? || r.value.nombre.None?
  {
    if HasLetter(d) {
      ParseCleanName(d);
    } else {
      ParseCleanNoName(d);
    }
  }

  /** Clean text holding a letter is read as a name, whole, with no ID. */
  lemma ParseCleanName(d: string)
    requires CleanText(d) && HasLetter(d)
    ensures ParseCedulaPayload(d) == Some(Scan(None, Some(d)))
  {
    assert d != "";
    CleanParts(d);
    SingleSegmentFields(d);
  }

  lemma ParseCleanNoName(d: string)
    requires CleanText(d) && !HasLetter(d)
    ensures ParseCedulaPayload(d).None? || ParseCedulaPayload(d).value.nombre.None?
  {
    if d != "" {
      CleanParts(d);
      SingleSegmentNoName(d);
      NoNameParse(d);
    }
  }

  lemma NoNameParse(d: string)
    requires FindName(Parts(d)) == None
    ensures ParseCedulaPayload(d).None? || ParseCedulaPayload(d).value.nombre.None?
  {
  }

  lemma SingleSegmentNoName(d: string)
    requires !HasLetter(d)
    ensures FindName([d]) == None
  {
    assert forall j :: 0 <= j < |[d]| ==> [d][j] == d;
  }

  /** The fallback never yields both an ID and a name. */
  lemma FallbackOneField(rawText: string, rawBytes: seq<Byte>)
    requires ParseCedulaPayload(rawText).None?
    ensures var r := HandleScan(rawText, rawBytes);
            r.None? || r.value.cedula.None? || r.value.nombre.None?
  {
    if |rawBytes| > 0 {
      ParseCleanOneField(Decoded(rawBytes));
    } else {
      ParseCleanOneField(Decoded(CodesOf(rawText)));
    }
  }

  /** An ID and a name joined by a space are clean text holding a letter. */
  lemma SpacedPairClean(cedula: string, nombre: string)
    requires IsCedulaDigits(cedula) && CleanText(nombre) && HasLetter(nombre)
    ensures CleanText(cedula + " " + nombre) && HasLetter(cedula + " " + nombre)
  {
    var d := cedula + " " + nombre;
    assert forall i :: 0 <= i < |cedula| ==> IsDigit(cedula[i]) && IsAsciiAlnum(cedula[i]);
    WordClean(cedula);
    JoinClean(cedula, nombre);
    var j :| 0 <= j < |nombre| && IsNameLetter(nombre[j]);
    var pre := cedula + " ";
    assert |pre| == |cedula| + 1;
    assert d[|pre| + j] == nombre[j];
  }

  /** A word of ASCII letters and digits is clean text. */
  lemma WordClean(w: string)
    requires forall i :: 0 <= i < |w| ==> IsAsciiAlnum(w[i])
    ensures CleanText(w)
  {
  }

  /** Two non-empty clean texts joined by one space are clean text. */
  lemma JoinClean(a: string, b: string)
    requires CleanText(a) && CleanText(b) && a != "" && b != ""
    ensures CleanText(a + " " + b)
  {
    var d := a + " " + b;
    assert d[0] == a[0] && d[|d| - 1] == b[|b| - 1];
    JoinChars(a, b);
    JoinSingleSpaced(a, b);
  }

  lemma JoinChars(a: string, b: string)
    requires CleanText(a) && CleanText(b)
    ensures AlnumOrSpace(a + " " + b)
  {
    var d := a + " " + b;
    forall i | 0 <= i < |d| ensures IsAsciiAlnum(d[i]) || d[i] == ' ' {
      if i < |a| {
        assert d[i] == a[i];
      } else if i > |a| {
        assert d[i] == b[i - |a| - 1];
      }
    }
  }

  lemma JoinSingleSpaced(a: string, b: string)
    requires CleanText(a) && CleanText(b) && a != "" && b != ""
    ensures SingleSpaced(a + " " + b)
  {
    var d := a + " " + b;
    var m := |a|;
    forall i | 0 <= i < |d| && IsSpace(d[i]) ensures d[i] == ' ' {
      if i < m {
        assert d[i] == a[i];
      } else if i > m {
        assert d[i] == b[i - m - 1];
      }
    }
    forall i | 0 <= i < |d| - 1 ensures !(IsSpace(d[i]) && IsSpace(d[i + 1])) {
      if i < m - 1 {
        assert d[i] == a[i] && d[i + 1] == a[i + 1];
      } else if i == m - 1 {
        assert d[i] == a[m - 1];
      } else if i == m {
        assert d[i + 1] == b[0];
      } else {
        assert d[i] == b[i - m - 1] && d[i + 1] == b[i - m];
      }
    }
  }

  /** A single segment holding a letter is the name and not the ID. */
  lemma SingleSegmentFields(d: string)
    requires HasLetter(d)
    ensures FindCedula([d]) == None && FindName([d]) == Some(d)
  {
    NotBothFields(d);
    NameIsEarliestLongest([d], 0);
  }

  /** Text read as an ID, a space and a name is one segment: it gives a name
      (the whole text) and no ID, since the letters stop it reading as digits. */
  lemma SpacedPairIsName(cedula: string, nombre: string)
    requires IsCedulaDigits(cedula) && CleanText(nombre) && HasLetter(nombre)
    ensures ParseCedulaPayload(cedula + " " + nombre) == Some(Scan(None, Some(cedula + " " + nombre)))
  {
    SpacedPairClean(cedula, nombre);
    ParseCleanName(cedula + " " + nombre);
  }

  /** The fallback on bytes that decode to an ID, a space and a name yields
      that whole text as the name and no ID. */
  lemma FallbackSpacedPair(rawText: string, rawBytes: seq<Byte>, cedula: string, nombre: string)
    requires ParseCedulaPayload(rawText).None?
    requires IsCedulaDigits(cedula) && CleanText(nombre) && HasLetter(nombre)
    requires |rawBytes| > 0 && Decoded(rawBytes) == cedula + " " + nombre
    ensures HandleScan(rawText, rawBytes) == Some(Scan(None, Some(cedula + " " + nombre)))
  {
    SpacedPairIsName(cedula, nombre);
  }

  /** The same for one concrete card: "987654321 MARIA GOMEZ" is read as a
      name, with no ID. */
  lemma SpacedExample()
    ensures var d := "987654321" + " " + ("MARIA" + " " + "GOMEZ");
            ParseCedulaPayload(d) == Some(Scan(None, Some(d)))
  {
    var first, last := "MARIA", "GOMEZ";
    assert IsAsciiAlnum(first[0]) && IsAsciiAlnum(first[1]) && IsAsciiAlnum(first[2])
        && IsAsciiAlnum(first[3]) && IsAsciiAlnum(first[4]);
    assert IsAsciiAlnum(last[0]) && IsAsciiAlnum(last[1]) && IsAsciiAlnum(last[2])
        && IsAsciiAlnum(last[3]) && IsAsciiAlnum(last[4]);
    WordClean(first);
    WordClean(last);
    JoinClean(first, last);
    var n := first + " " + last;
    assert n[0] == first[0] && IsNameLetter(n[0]);
    SpacedPairIsName("987654321", n);
  }
}

=== FILE: eventos.dfy ===
/** The access-event routes (backend/routes/eventos.js): the history listing
    (time range, direction, free-text search over seven fields) and the POST
    that builds an event's field map with defaults, required fields and
    optional links. */
module Eventos {
  import opened Basics
  import opened Text
  import opened Formula
  import opened Store

  datatype EventoQuery = EventoQuery(range: Option<string>, search: Option<string>, tipo: Option<string>)

  datatype EventoBody = EventoBody(
    personaRecordId: Option<string>,
    vehiculoRecordId: Option<string>,
    destino: Option<string>,
    tipo: Option<string>,
    metodo: Option<string>,
    observacion: Option<string>,
    cedula: Option<string>,
    nombre: Option<string>,
    placa: Option<string>)

  /** The seven fields the free-text search looks into, in the order of the `OR`. */
  const SearchFields: seq<string> :=
    ["cedula", "nombre_completo", "placa", "destino", "tipo_evento", "persona_nombre", "vehiculo_placa_texto"]

  /** One "contains" clause per search field, each on its own indented line:
      line `i` searches for exactly the term, in field `i`. */
  function SearchLines(search: string): (lines: seq<string>)
    ensures |lines| == |SearchFields|
    ensures forall i :: 0 <= i < |lines| ==>
              |lines[i]| >= 19 && lines[i][..19] == "        FIND(LOWER("
    ensures NoBackslash(search) ==> forall i :: 0 <= i < |lines| ==>
              ReadLiteral(lines[i][19..]) == Some((search, "), LOWER({" + SearchFields[i] + "}))"))
  {
    var lines := seq(|SearchFields|, i requires 0 <= i < |SearchFields| => "        " + AirtableContains(SearchFields[i], search));
    forall i | 0 <= i < |lines|
      ensures |lines[i]| >= 19 && lines[i][..19] == "        FIND(LOWER("
      ensures lines[i][19..] == AirtableContains(SearchFields[i], search)[11..]
    {
      var c := AirtableContains(SearchFields[i], search);
      assert lines[i] == "        " + c;
      assert lines[i][..19] == "        " + c[..11];
    }
    lines
  }

  /** For a search term without double quotes each line is the one the
      source sends. */
  lemma SearchLinesAsSent(search: string)
    requires NoQuote(search)
    ensures forall i :: 0 <= i < |SearchFields| ==>
              SearchLines(search)[i] == "        " + AirtableContainsAsWritten(SearchFields[i], search)
  {
    forall i | 0 <= i < |SearchFields|
      ensures SearchLines(search)[i] == "        " + AirtableContainsAsWritten(SearchFields[i], search)
    {
      QuoteFreeAgrees(SearchFields[i], search);
    }
  }

  /** The multi-line `OR(...)` of the seven "contains" clauses: it opens
      with the first line right after `OR(` and a newline, and holds every
      line. */
  function SearchFormula(search: string): (f: string)
    ensures |f| > 4 && f[..4] == "OR(\n" && f[|f| - 1] == ')'
    ensures At(SearchLines(search)[0], f, 4)
    ensures forall i :: 0 <= i < |SearchFields| ==> Within(SearchLines(search)[i], f)
  {
    var lines := SearchLines(search);
    var f := "OR(\n" + Join(lines, ",\n") + "\n      )";
    OrOfLines(lines, f);
    f
  }

  /** The seven indented "contains" lines exactly as the source writes them. */
  function SentLines(search: string): (lines: seq<string>)
    ensures |lines| == |SearchFields|
  {
    seq(|SearchFields|, i requires 0 <= i < |SearchFields| => "        " + AirtableContainsAsWritten(SearchFields[i], search))
  }

  /** For a search term without double quotes the whole search formula is the
      one the source sends: the `OR` of exactly the seven lines, nothing more. */
  lemma SearchFormulaAsSent(search: string)
    requires NoQuote(search)
    ensures SearchFormula(search) == "OR(\n" + Join(SentLines(search), ",\n") + "\n      )"
  {
    SearchLinesAsSent(search);
    assert SearchLines(search) == SentLines(search);
  }

  /** Where the lines of a multi-line `OR` sit. */
  lemma OrOfLines(lines: seq<string>, f: string)
    requires |lines| > 0
    requires f == "OR(\n" + Join(lines, ",\n") + "\n      )"
    ensures |f| > 4 && f[..4] == "OR(\n" && f[|f| - 1] == ')'
    ensures At(lines[0], f, 4)
    ensures forall i :: 0 <= i < |lines| ==> Within(lines[i], f)
  {
    var body := Join(lines, ",\n");
    OrWrap(body, lines[0], f);
    forall i | 0 <= i < |lines|
      ensures Within(lines[i], f)
    {
      JoinHolds(lines, ",\n", i);
      WithinExtend(lines[i], "OR(\n", body, "\n      )");
    }
  }

  lemma OrWrap(body: string, first: string, f: string)
    requires |body| >= |first| && body[..|first|] == first
    requires f == "OR(\n" + body + "\n      )"
    ensures |f| > 4 && f[..4] == "OR(\n" && f[|f| - 1] == ')'
    ensures At(first, f, 4)
  {
    assert f[4..4 + |first|] == body[..|first|];
  }

  /** The sanitised range, or "24h" when it is empty. */
  function EffectiveRange(range: Option<string>): (r: string)
    ensures r != ""
    ensures Sanitize(range) != "" ==> r == Sanitize(range)
  {
    if Sanitize(range) == "" then "24h" else Sanitize(range)
  }

  /** The clauses of the listing for a range clause (`rf`, pushed only when
      truthy) and a sanitised direction and search, in the order range,
      direction, search; each one present only when its input calls for it. */
  function EventoClauses(rf: Option<string>, tipo: string, search: string): (cs: seq<string>)
    ensures var nr := if rf.Some? && rf.value != "" then 1 else 0;
            var nt := if tipo != "" then 1 else 0;
            && |cs| == nr + nt + (if search != "" then 1 else 0)
            && (nr == 1 ==> cs[0] == rf.value)
            && (tipo != "" ==> cs[nr] == AirtableEq("tipo_evento", tipo))
            && (search != "" ==> cs[nr + nt] == SearchFormula(search))
    ensures forall i :: 0 <= i < |cs| ==> cs[i] != ""
  {
    var a: seq<string> := if rf.Some? && rf.value != "" then [rf.value] else [];
    var b: seq<string> := if tipo != "" then [AirtableEq("tipo_evento", tipo)] else [];
    var c: seq<string> := if search != "" then [SearchFormula(search)] else [];
    AllPresent(a, b, c);
    a + b + c
  }

  /** For a direction without double quotes its clause is the one the source sends. */
  lemma TipoClauseAsSent(rf: Option<string>, tipo: string, search: string)
    requires tipo != "" && NoQuote(tipo)
    ensures var nr := if rf.Some? && rf.value != "" then 1 else 0;
            EventoClauses(rf, tipo, search)[nr] == AirtableEqAsWritten("tipo_evento", tipo)
  {
    QuoteFreeAgrees("tipo_evento", tipo);
  }

  /** Three optional clauses in a row: where each lands, and none is empty. */
  lemma AllPresent(a: seq<string>, b: seq<string>, c: seq<string>)
    requires |a| <= 1 && |b| <= 1 && |c| <= 1
    requires forall i :: 0 <= i < |a| ==> a[i] != ""
    requires forall i :: 0 <= i < |b| ==> b[i] != ""
    requires forall i :: 0 <= i < |c| ==> c[i] != ""
    ensures |a + b + c| == |a| + |b| + |c|
    ensures |a| == 1 ==> (a + b + c)[0] == a[0]
    ensures |b| == 1 ==> (a + b + c)[|a|] == b[0]
    ensures |c| == 1 ==> (a + b + c)[|a| + |b|] == c[0]
    ensures forall i :: 0 <= i < |a + b + c| ==> (a + b + c)[i] != ""
  {
  }

  /** The clauses of GET / for a request at epoch milliseconds `now`. */
  function RequestClauses(q: EventoQuery, now: int, iso: int -> string): seq<string> {
    EventoClauses(RangeFormula(EffectiveRange(q.range), now, iso), Sanitize(q.tipo), Sanitize(q.search))
  }

  /** GET /: the clauses combined by `buildFilterByFormula`, newest first, at most 50. */
  function ListEventos(q: EventoQuery, now: int, iso: int -> string): (r: Query)
    ensures r.filter.None? <==> RequestClauses(q, now, iso) == []
    ensures r.filter.Some? ==> r.filter.value == Combine(RequestClauses(q, now, iso))
    ensures r.maxRecords == 50
    ensures r.sort == [SortSpec("fecha_hora", "desc")]
  {
    var cs := RequestClauses(q, now, iso);
    assert Keep(cs, Truthy) == cs by { KeepAll(cs, Truthy); }
    MakeQuery(BuildFilterByFormula(cs), 50, SortArray([SortSpec("fecha_hora", "desc")]))
  }

  /** The literal defaults have no edge whitespace. */
  lemma LiteralsTrimmed()
    ensures Trimmed("24h") && Trimmed("all") && Trimmed("entrada") && Trimmed("manual")
  {
  }

  /** With no range given the listing covers the last 24 hours. */
  lemma MissingRangeIsLastDay(search: Option<string>, tipo: Option<string>, now: int, iso: int -> string)
    ensures ListEventos(EventoQuery(None, search, tipo), now, iso)
         == ListEventos(EventoQuery(Some("24h"), search, tipo), now, iso)
    ensures RequestClauses(EventoQuery(None, search, tipo), now, iso)[0] == IsAfter(iso(now - DayMs))
  {
    DefaultRange();
    var rf := RangeFormula("24h", now, iso);
    assert rf == Some(IsAfter(iso(now - DayMs))) && rf.value != "";
  }

  /** A missing range and an explicit "24h" both select the last day. */
  lemma DefaultRange()
    ensures EffectiveRange(None) == "24h" && EffectiveRange(Some("24h")) == "24h"
  {
    LiteralsTrimmed();
    assert Sanitize(Some("24h")) == "24h";
  }

  /** Range "all" with only a search term filters by the seven-field search alone. */
  lemma SearchOnlyListing(search: string, now: int, iso: int -> string)
    requires Sanitize(Some(search)) != ""
    ensures ListEventos(EventoQuery(Some("all"), Some(search), None), now, iso).filter
         == Some(SearchFormula(Sanitize(Some(search))))
  {
    LiteralsTrimmed();
    assert Sanitize(Some("all")) == "all";
  }

  const EventoRequired := "persona_record_id y destino son requeridos"

  /** An optional text field is written only when it sanitises to non-empty. */
  function OptionalText(v: Option<string>): (r: Option<string>)
    ensures r.Some? <==> Sanitize(v) != ""
    ensures r.Some? ==> r.value == Sanitize(v)
  {
    if Sanitize(v) == "" then None else Some(Sanitize(v))
  }

  /** Every text an event holds is trimmed, required ones are non-empty, and optional ones are absent rather than empty. */
  predicate WellFormed(e: Evento) {
    && |e.persona| == 1 && e.persona[0] != ""
    && e.destino != "" && Trimmed(e.destino)
    && e.tipo != "" && Trimmed(e.tipo)
    && e.metodo != "" && Trimmed(e.metodo)
    && (e.vehiculo.Some? ==> |e.vehiculo.value| == 1 && e.vehiculo.value[0] != "")
    && (e.observacion.Some? ==> e.observacion.value != "")
    && (e.cedula.Some? ==> e.cedula.value != "")
    && (e.nombre.Some? ==> e.nombre.value != "")
    && (e.placa.Some? ==> e.placa.value != "")
  }

  /** The field map of a new event, with the defaults for direction and method. */
  function BuildEvento(body: EventoBody, newId: string, now: string): Evento {
    var vehiculo := Sanitize(body.vehiculoRecordId);
    Evento(newId,
           [Sanitize(body.personaRecordId)],
           if vehiculo != "" then Some([vehiculo]) else None,
           Sanitize(body.destino),
           if Sanitize(body.tipo) == "" then "entrada" else Sanitize(body.tipo),
           now,
           if Sanitize(body.metodo) == "" then "manual" else Sanitize(body.metodo),
           OptionalText(body.observacion),
           OptionalText(body.cedula),
           OptionalText(body.nombre),
           OptionalText(body.placa))
  }

  /** POST /: rejected without touching the table when the person link or the
      destination is empty; otherwise one event is appended whose direction
      defaults to "entrada", whose method defaults to "manual", whose vehicle
      link is set only for a non-empty vehicle id, and whose text copies are
      set only when non-empty. */
  function PostEvento(t: seq<Evento>, body: EventoBody, newId: string, now: string): (r: Reply<Evento>)
    ensures r.response.Rejected? <==> Sanitize(body.personaRecordId) == "" || Sanitize(body.destino) == ""
    ensures r.response.Rejected? ==> r.table == t
    ensures r.response.Saved? ==>
              var e := r.response.record;
              && r.response.created
              && r.table == t + [e]
              && e.id == newId && e.fecha == now
              && e.persona == [Sanitize(body.personaRecordId)]
              && e.destino == Sanitize(body.destino)
              && e.tipo == (if Sanitize(body.tipo) == "" then "entrada" else Sanitize(body.tipo))
              && e.metodo == (if Sanitize(body.metodo) == "" then "manual" else Sanitize(body.metodo))
              && (e.vehiculo.Some? <==> Sanitize(body.vehiculoRecordId) != "")
              && (e.vehiculo.Some? ==> e.vehiculo.value == [Sanitize(body.vehiculoRecordId)])
              && e.observacion == OptionalText(body.observacion)
              && e.cedula == OptionalText(body.cedula)
              && e.nombre == OptionalText(body.nombre)
              && e.placa == OptionalText(body.placa)
  {
    if Sanitize(body.personaRecordId) == "" || Sanitize(body.destino) == "" then
      Reply(Rejected(EventoRequired), t)
    else
      var e := BuildEvento(body, newId, now);
      Reply(Saved(true, e), t + [e])
  }

  /** An event built from a request that passes validation is well formed. */
  lemma BuiltEventWellFormed(body: EventoBody, newId: string, now: string)
    requires Sanitize(body.personaRecordId) != "" && Sanitize(body.destino) != ""
    ensures WellFormed(BuildEvento(body, newId, now))
  {
    LiteralsTrimmed();
  }

  /** A table of well-formed events stays that way through the POST. */
  lemma PostKeepsEventsWellFormed(t: seq<Evento>, body: EventoBody, newId: string, now: string)
    requires forall i :: 0 <= i < |t| ==> WellFormed(t[i])
    ensures var t' := PostEvento(t, body, newId, now).table;
            forall i :: 0 <= i < |t'| ==> WellFormed(t'[i])
  {
    var r := PostEvento(t, body, newId, now);
    if r.response.Saved? {
      BuiltEventWellFormed(body, newId, now);
      assert r.table == t + [BuildEvento(body, newId, now)];
    }
  }
}

=== FILE: formula.dfy ===
/** The backend's filter-formula builders (backend/utils.js): input
    sanitising, combining clauses with `AND(...)`, the exact-match and
    case-insensitive "contains" clauses, and the date-range clause.

    String literals inside a formula are double-quoted; `ReadLiteral` is the
    reading side used to state what the builders promise: the value placed in
    a clause is the value the formula engine reads back. */
module Formula {
  import opened Basics
  import opened Text

  /** `sanitize`: absent or empty input becomes "", anything else is trimmed. */
  function Sanitize(v: Option<string>): (r: string)
    ensures Trimmed(r)
    ensures v.None? ==> r == ""
    ensures v.Some? && Trimmed(v.value) ==> r == v.value
  {
    if v.None? || v.value == "" then "" else Trim(v.value)
  }

  /** Sanitising removes whitespace at the ends of the input and nothing else. */
  lemma SanitizeStripsOnlySpace(s: string)
    ensures exists k :: StripsOnlySpace(s, k, Sanitize(Some(s)))
  {
    if s == "" {
      assert Sanitize(Some(s)) == "";
      assert StripsOnlySpace(s, 0, "");
    } else {
      TrimStripsOnlySpace(s);
      assert Sanitize(Some(s)) == Trim(s);
    }
  }

  lemma SanitizeIdempotent(v: Option<string>)
    ensures Sanitize(Some(Sanitize(v))) == Sanitize(v)
  {
    TrimOfTrimmed(Sanitize(v));
  }

  /** Sanitising cannot introduce a backslash. */
  lemma SanitizeNoBackslash(s: string)
    requires NoBackslash(s)
    ensures NoBackslash(Sanitize(Some(s)))
  {
    if s != "" {
      TrimSlice(s);
      var t := Sanitize(Some(s));
      forall i | 0 <= i < |t| ensures t[i] != '\\' {
        assert t[i] == s[TrimOffset(s) + i];
      }
    }
  }

  /** The formula made from clauses that are all present: none gives "", one
      is passed through as is, several are combined with `AND(` ... `)` joined by ",". */
  function Combine(kept: seq<string>): (r: string)
    requires forall i :: 0 <= i < |kept| ==> kept[i] != ""
    ensures r == "" <==> |kept| == 0
    ensures |kept| == 1 ==> r == kept[0]
    ensures |kept| >= 2 ==>
              |r| >= 5 && r[..4] == "AND(" && r[|r| - 1] == ')'
              && r[4..|r| - 1] == Join(kept, ",")
  {
    if |kept| == 0 then ""
    else if |kept| == 1 then kept[0]
    else
      var r := "AND(" + Join(kept, ",") + ")";
      assert r[4..|r| - 1] == Join(kept, ",");
      r
  }

  /** `buildFilterByFormula`: falsy clauses are dropped and the rest combined. */
  function BuildFilterByFormula(clauses: seq<string>): (r: string)
    ensures r == "" <==> forall i :: 0 <= i < |clauses| ==> clauses[i] == ""
    ensures r == Combine(Keep(clauses, Truthy))
  {
    Combine(Keep(clauses, Truthy))
  }

  /** No clause is kept from a list of absent clauses. */
  lemma KeepNoneTruthy(s: seq<string>)
    requires forall i :: 0 <= i < |s| ==> s[i] == ""
    ensures Keep(s, Truthy) == []
  {
  }

  /** An empty clause anywhere in the list changes nothing. */
  lemma BuildFilterIgnoresEmpty(a: seq<string>, b: seq<string>)
    ensures BuildFilterByFormula(a + [""] + b) == BuildFilterByFormula(a + b)
  {
    var withEmpty := a + [""];
    KeepAppend(withEmpty, b, Truthy);
    KeepAppend(a, [""], Truthy);
    KeepAppend(a, b, Truthy);
    assert Keep([""], Truthy) == [];
    assert Keep(withEmpty, Truthy) == Keep(a, Truthy);
    assert Keep(a + [""] + b, Truthy) == Keep(a + b, Truthy);
  }

  /** A single present clause among absent ones is the whole formula. */
  lemma BuildFilterSingle(a: seq<string>, c: string, b: seq<string>)
    requires c != ""
    requires forall i :: 0 <= i < |a| ==> a[i] == ""
    requires forall i :: 0 <= i < |b| ==> b[i] == ""
    ensures BuildFilterByFormula(a + [c] + b) == c
  {
    KeepAppend(a + [c], b, Truthy);
    KeepAppend(a, [c], Truthy);
    KeepNoneTruthy(a);
    KeepNoneTruthy(b);
    assert Keep([c], Truthy) == [c];
    assert Keep(a + [c] + b, Truthy) == [c];
  }

  /** Two present clauses are combined with `AND(`, a comma and `)`. */
  lemma BuildFilterPair(a: string, b: string)
    requires a != "" && b != ""
    ensures BuildFilterByFormula([a, b]) == "AND(" + a + "," + b + ")"
  {
    assert [a, b][1..] == [b];
    assert Keep([b], Truthy) == [b];
    assert Keep([a, b], Truthy) == [a, b];
    assert Join([a, b], ",") == a + "," + b by {
      assert [a, b][1..] == [b];
    }
  }

  // ---- string literals inside formulas ----

  predicate NoBackslash(v: string) {
    forall i :: 0 <= i < |v| ==> v[i] != '\\'
  }

  predicate NoQuote(v: string) {
    forall i :: 0 <= i < |v| ==> v[i] != '"'
  }

  /** Every double quote of the value replaced by `rep`. */
  function ReplaceQuotes(v: string, rep: string): (r: string)
    ensures NoQuote(v) ==> r == v
    decreases |v|
  {
    if |v| == 0 then ""
    else (if v[0] == '"' then rep else [v[0]]) + ReplaceQuotes(v[1..], rep)
  }

  /** Reads the body of a double-quoted literal up to its closing quote, a
      backslash making the next character literal; yields the value read and
      the text after the closing quote. */
  function ReadLiteralBody(t: string): Option<(string, string)>
    decreases |t|
  {
    if |t| == 0 then None
    else if t[0] == '"' then Some(("", t[1..]))
    else if t[0] == '\\' then
      if |t| == 1 then None
      else match ReadLiteralBody(t[2..])
        case None => None
        case Some(p) => Some(([t[1]] + p.0, p.1))
    else match ReadLiteralBody(t[1..])
      case None => None
      case Some(p) => Some(([t[0]] + p.0, p.1))
  }

  function ReadLiteral(s: string): Option<(string, string)> {
    if |s| > 0 && s[0] == '"' then ReadLiteralBody(s[1..]) else None
  }

  /** What follows a literal does not change how it reads. */
  lemma {:induction false} ReadBodyExtend(t: string, more: string)
    requires ReadLiteralBody(t).Some?
    ensures ReadLiteralBody(t + more) == Some((ReadLiteralBody(t).value.0, ReadLiteralBody(t).value.1 + more))
    decreases |t|
  {
    var u := t + more;
    if t[0] == '"' {
      assert u[1..] == t[1..] + more;
    } else if t[0] == '\\' {
      ReadBodyExtend(t[2..], more);
      assert u[2..] == t[2..] + more;
    } else {
      ReadBodyExtend(t[1..], more);
      assert u[1..] == t[1..] + more;
    }
  }

  lemma ReadLiteralExtend(s: string, more: string)
    requires ReadLiteral(s).Some?
    ensures ReadLiteral(s + more) == Some((ReadLiteral(s).value.0, ReadLiteral(s).value.1 + more))
  {
    ReadBodyExtend(s[1..], more);
    assert (s + more)[1..] == s[1..] + more;
  }

  /** The quote handling as written in `airtableEq`/`airtableContains`: the
      replacement text is a lone double quote, so nothing changes. */
  function QuoteAsWritten(v: string): (r: string)
    ensures r == "\"" + v + "\""
  {
    assert ReplaceQuotes(v, "\"") == v by { ReplaceIsIdentity(v); }
    "\"" + ReplaceQuotes(v, "\"") + "\""
  }

  lemma {:induction false} ReplaceIsIdentity(v: string)
    ensures ReplaceQuotes(v, "\"") == v
    decreases |v|
  {
    if |v| > 0 {
      ReplaceIsIdentity(v[1..]);
      assert [v[0]] + v[1..] == v;
    }
  }

  /** The intended quoting: every `"` in the value is written as `\"`. */
  function Quote(v: string): string {
    "\"" + ReplaceQuotes(v, "\\\"") + "\""
  }

  lemma {:induction false} EscapedBodyReadsBack(v: string, rest: string)
    requires NoBackslash(v)
    ensures ReadLiteralBody(ReplaceQuotes(v, "\\\"") + "\"" + rest) == Some((v, rest))
    decreases |v|
  {
    var t := ReplaceQuotes(v, "\\\"") + "\"" + rest;
    if |v| == 0 {
      assert t == "\"" + rest;
      assert t[1..] == rest;
    } else {
      EscapedBodyReadsBack(v[1..], rest);
      var tail := ReplaceQuotes(v[1..], "\\\"") + "\"" + rest;
      if v[0] == '"' {
        assert t == "\\\"" + tail;
        assert t[2..] == tail;
      } else {
        assert t == [v[0]] + tail;
        assert t[1..] == tail;
      }
      assert [v[0]] + v[1..] == v;
    }
  }

  /** With the intended quoting the literal reads back as exactly the value. */
  lemma QuoteRoundTrip(v: string, rest: string)
    requires NoBackslash(v)
    ensures ReadLiteral(Quote(v) + rest) == Some((v, rest))
  {
    EscapedBodyReadsBack(v, rest);
    assert (Quote(v) + rest)[1..] == ReplaceQuotes(v, "\\\"") + "\"" + rest;
  }

  /** Reading a backslash-free text stops at its first quote. */
  lemma {:induction false} ReadStopsAtQuote(v: string, q: nat, tail: string)
    requires NoBackslash(v) && q < |v| && v[q] == '"'
    requires forall i :: 0 <= i < q ==> v[i] != '"'
    ensures ReadLiteralBody(v + tail) == Some((v[..q], v[q + 1..] + tail))
    decreases q
  {
    var t := v + tail;
    if q > 0 {
      ReadStopsAtQuote(v[1..], q - 1, tail);
      assert t[1..] == v[1..] + tail;
      assert [v[0]] + v[1..][..q - 1] == v[..q];
      assert v[1..][q..] == v[q + 1..];
    } else {
      assert t[1..] == v[1..] + tail;
    }
  }

  /** As written, a value holding a double quote ends the literal early: the
      formula engine reads back a strictly shorter value, and the rest of the
      value is parsed as formula text. */
  lemma AsWrittenQuoteBreaksOut(v: string, q: nat, rest: string)
    requires NoBackslash(v) && q < |v| && v[q] == '"'
    requires forall i :: 0 <= i < q ==> v[i] != '"'
    ensures ReadLiteral(QuoteAsWritten(v) + rest) == Some((v[..q], v[q + 1..] + "\"" + rest))
    ensures ReadLiteral(QuoteAsWritten(v) + rest) != Some((v, rest))
  {
    var s := QuoteAsWritten(v) + rest;
    assert s[1..] == v + ("\"" + rest);
    ReadStopsAtQuote(v, q, "\"" + rest);
    assert v[q + 1..] + ("\"" + rest) == v[q + 1..] + "\"" + rest;
  }

  /** `airtableEq` as written: `{field}="value"` with the value's quotes left as they are. */
  function AirtableEqAsWritten(field: string, value: string): (r: string)
    ensures r == "{" + field + "}=" + "\"" + value + "\""
  {
    "{" + field + "}=" + QuoteAsWritten(value)
  }

  /** `airtableContains` as written: `FIND(LOWER("value"), LOWER({field}))`. */
  function AirtableContainsAsWritten(field: string, value: string): (r: string)
    ensures r == "FIND(LOWER(" + "\"" + value + "\"" + "), LOWER({" + field + "}))"
  {
    "FIND(LOWER(" + QuoteAsWritten(value) + "), LOWER({" + field + "}))"
  }

  /** A quote in the value escapes the exact-match literal of `airtableEq` as written. */
  lemma AirtableEqAsWrittenBreaksOut(field: string, v: string, q: nat)
    requires NoBackslash(v) && q < |v| && v[q] == '"'
    requires forall i :: 0 <= i < q ==> v[i] != '"'
    ensures var r := AirtableEqAsWritten(field, v);
      ReadLiteral(r[|field| + 3..]) == Some((v[..q], v[q + 1..] + "\""))
  {
    var r := AirtableEqAsWritten(field, v);
    assert r[|field| + 3..] == QuoteAsWritten(v) + "";
    AsWrittenQuoteBreaksOut(v, q, "");
    assert v[q + 1..] + "\"" + "" == v[q + 1..] + "\"";
  }

  /** `airtableEq` with the intended quoting: `{field}=` followed by a literal
      that reads back as exactly the value. */
  function AirtableEq(field: string, value: string): (r: string)
    ensures |r| >= |field| + 3 && r[..|field| + 3] == "{" + field + "}="
    ensures NoBackslash(value) ==> ReadLiteral(r[|field| + 3..]) == Some((value, ""))
  {
    var r := "{" + field + "}=" + Quote(value);
    assert r[|field| + 3..] == Quote(value) + "";
    assert NoBackslash(value) ==> ReadLiteral(Quote(value) + "") == Some((value, "")) by {
      if NoBackslash(value) { QuoteRoundTrip(value, ""); }
    }
    r
  }

  /** `airtableContains` with the intended quoting: the searched value is read
      back exactly, followed by the lower-cased field reference. */
  function AirtableContains(field: string, value: string): (r: string)
    ensures |r| >= 11 && r[..11] == "FIND(LOWER("
    ensures NoBackslash(value) ==>
              ReadLiteral(r[11..]) == Some((value, "), LOWER({" + field + "}))"))
  {
    var r := "FIND(LOWER(" + Quote(value) + "), LOWER({" + field + "}))";
    assert r[11..] == Quote(value) + ("), LOWER({" + field + "}))");
    assert NoBackslash(value) ==>
        ReadLiteral(Quote(value) + ("), LOWER({" + field + "}))")) == Some((value, "), LOWER({" + field + "}))")) by {
      if NoBackslash(value) { QuoteRoundTrip(value, "), LOWER({" + field + "}))"); }
    }
    r
  }

  /** For a value without double quotes the intended and the as-written
      clauses are the same text. */
  lemma QuoteFreeAgrees(field: string, value: string)
    requires NoQuote(value)
    ensures AirtableEq(field, value) == AirtableEqAsWritten(field, value)
    ensures AirtableContains(field, value) == AirtableContainsAsWritten(field, value)
  {
    assert Quote(value) == QuoteAsWritten(value);
  }

  // ---- date ranges ----

  /** Milliseconds in a day. */
  const DayMs: int := 24 * 60 * 60 * 1000

  /** How far back a range reaches: "24h" one day, "7d" seven days; anything else is unbounded. */
  function RangeWindow(range: string): (w: Option<int>)
    ensures w.Some? <==> range == "24h" || range == "7d"
    ensures w.Some? ==> w.value > 0 && w.value % DayMs == 0
  {
    if range == "24h" then Some(DayMs)
    else if range == "7d" then Some(7 * DayMs)
    else None
  }

  function IsAfter(instant: string): (f: string)
    ensures f != ""
  {
    "IS_AFTER({fecha_hora}, \"" + instant + "\")"
  }

  /** `rangeFormula`: no clause for a missing, "all" or unrecognised range;
      otherwise "after now minus the window", with `now` in epoch milliseconds
      and `iso` standing for `Date.prototype.toISOString`. */
  function RangeFormula(range: string, now: int, iso: int -> string): (r: Option<string>)
    ensures r.None? <==> range == "" || range == "all" || (range != "24h" && range != "7d")
    ensures range == "24h" ==> r == Some(IsAfter(iso(now - DayMs)))
    ensures range == "7d" ==> r == Some(IsAfter(iso(now - 7 * DayMs)))
  {
    if range == "" || range == "all" then None
    else match RangeWindow(range)
      case None => None
      case Some(w) => Some(IsAfter(iso(now - w)))
  }
}

=== FILE: personas.dfy ===
/** The person routes (backend/routes/personas.js): lookup by national ID,
    free-text search, and the create-or-update POST that keeps at most one
    Persona record per ID. */
module Personas {
  import opened Basics
  import opened Text
  import opened Formula
  import opened Store

  datatype PersonaBody = PersonaBody(cedula: Option<string>, nombre: Option<string>)

  datatype Lookup = NotFound | Found(record: Persona)

  /** The search `{cedula}="c"` with `maxRecords: 1`: the first record whose ID is exactly `c`. */
  function FindByCedula(t: seq<Persona>, c: string): (r: Option<nat>)
    ensures r.None? <==> forall k :: 0 <= k < |t| ==> t[k].cedula != c
    ensures r.Some? ==> r.value < |t| && t[r.value].cedula == c
    ensures r.Some? ==> forall k :: 0 <= k < r.value ==> t[k].cedula != c
  {
    First(t, (p: Persona) => p.cedula == c)
  }

  /** At most one record per ID. */
  predicate UniqueCedulas(t: seq<Persona>) {
    forall i, j :: 0 <= i < j < |t| ==> t[i].cedula != t[j].cedula
  }

  /** GET /:cedula: not found exactly when no record has the sanitised ID;
      otherwise the first record that has it. */
  function GetPersona(t: seq<Persona>, param: string): (r: Lookup)
    ensures r.NotFound? <==> forall k :: 0 <= k < |t| ==> t[k].cedula != Sanitize(Some(param))
    ensures r.Found? ==> exists k :: 0 <= k < |t| && t[k] == r.record
                           && r.record.cedula == Sanitize(Some(param))
                           && forall j :: 0 <= j < k ==> t[j].cedula != Sanitize(Some(param))
  {
    var c := Sanitize(Some(param));
    match FindByCedula(t, c)
    case None => NotFound
    case Some(k) => Found(t[k])
  }

  /** GET /: no filter for an empty query; otherwise a case-insensitive
      "contains" on either the ID or the name. The sort is handed over as a
      JSON string, which never reaches the store. */
  function SearchPersonas(query: Option<string>): (r: Query)
    ensures r.filter.None? <==> Sanitize(query) == ""
    ensures r.filter.Some? ==> r.filter.value == EitherContains(Sanitize(query))
    ensures r.maxRecords == 20
    ensures r.sort == []
  {
    var q := Sanitize(query);
    var sort := SortText("[{\"field\":\"ultima_visita\",\"direction\":\"desc\"}]");
    if q == "" then MakeQuery("", 20, sort)
    else
      var clause := EitherContains(q);
      assert BuildFilterByFormula([clause]) == clause by {
        BuildFilterSingle([], clause, []);
        assert [] + [clause] + [] == [clause];
      }
      MakeQuery(BuildFilterByFormula([clause]), 20, sort)
  }

  /** `OR(<contains on cedula>, <contains on nombre_completo>)`: the first
      literal reads back the term and is followed by the `cedula` reference;
      the second, `m` characters in, reads back the term and is followed by
      the `nombre_completo` reference and the closing parenthesis. */
  function EitherContains(q: string): (r: string)
    ensures |r| >= 14 && r[..14] == "OR(FIND(LOWER("
    ensures var m := |AirtableContains("cedula", q)| + 5;
            |r| >= m + 11 && r[m - 2..m + 11] == ", FIND(LOWER("
    ensures var m := |AirtableContains("cedula", q)| + 5;
            NoBackslash(q) ==> ReadLiteral(r[14..]) == Some((q, "), LOWER({cedula}))" + r[m - 2..]))
    ensures var m := |AirtableContains("cedula", q)| + 5;
            NoBackslash(q) ==> ReadLiteral(r[m + 11..]) == Some((q, "), LOWER({nombre_completo})))"))
  {
    var c1 := AirtableContains("cedula", q);
    var c2 := AirtableContains("nombre_completo", q);
    var r := "OR(" + c1 + ", " + c2 + ")";
    BothLiterals(r, c1, c2, q);
    r
  }

  lemma BothLiterals(r: string, c1: string, c2: string, q: string)
    requires c1 == AirtableContains("cedula", q) && c2 == AirtableContains("nombre_completo", q)
    requires r == "OR(" + c1 + ", " + c2 + ")"
    ensures |r| >= 14 && r[..14] == "OR(FIND(LOWER("
    ensures |r| >= |c1| + 16 && r[|c1| + 3..|c1| + 16] == ", FIND(LOWER("
    ensures NoBackslash(q) ==> ReadLiteral(r[14..]) == Some((q, "), LOWER({cedula}))" + r[|c1| + 3..]))
    ensures NoBackslash(q) ==> ReadLiteral(r[|c1| + 16..]) == Some((q, "), LOWER({nombre_completo})))"))
  {
    OrShape(r, c1, c2);
    if NoBackslash(q) {
      assert "), LOWER({" + "cedula" + "}))" == "), LOWER({cedula}))";
      assert "), LOWER({" + "nombre_completo" + "}))" == "), LOWER({nombre_completo}))";
      assert "), LOWER({nombre_completo}))" + ")" == "), LOWER({nombre_completo})))";
      assert ReadLiteral(c1[11..]) == Some((q, "), LOWER({cedula}))"));
      assert ReadLiteral(c2[11..]) == Some((q, "), LOWER({nombre_completo}))"));
      OrLiterals(r, c1, c2, q, "), LOWER({cedula}))", "), LOWER({nombre_completo}))");
    }
  }

  /** Where the two clauses of the `OR` start. */
  lemma OrShape(r: string, c1: string, c2: string)
    requires |c1| >= 11 && c1[..11] == "FIND(LOWER(" && |c2| >= 11 && c2[..11] == "FIND(LOWER("
    requires r == "OR(" + c1 + ", " + c2 + ")"
    ensures |r| >= 14 && r[..14] == "OR(FIND(LOWER("
    ensures |r| >= |c1| + 16 && r[|c1| + 3..|c1| + 16] == ", FIND(LOWER("
  {
    assert r[..14] == "OR(" + c1[..11];
    assert r[|c1| + 3..|c1| + 16] == ", " + c2[..11];
  }

  /** Each clause's literal reads the same inside the `OR`. */
  lemma OrLiterals(r: string, c1: string, c2: string, q: string, t1: string, t2: string)
    requires |c1| >= 11 && |c2| >= 11
    requires r == "OR(" + c1 + ", " + c2 + ")"
    requires ReadLiteral(c1[11..]) == Some((q, t1)) && ReadLiteral(c2[11..]) == Some((q, t2))
    ensures ReadLiteral(r[14..]) == Some((q, t1 + r[|c1| + 3..]))
    ensures ReadLiteral(r[|c1| + 16..]) == Some((q, t2 + ")"))
  {
    assert r[14..] == c1[11..] + r[|c1| + 3..];
    ReadLiteralExtend(c1[11..], r[|c1| + 3..]);
    assert r[|c1| + 16..] == c2[11..] + ")";
    ReadLiteralExtend(c2[11..], ")");
  }

  /** For a term without double quotes the clause is the one the source sends. */
  lemma EitherContainsAsSent(q: string)
    requires NoQuote(q)
    ensures EitherContains(q)
         == "OR(" + AirtableContainsAsWritten("cedula", q) + ", " + AirtableContainsAsWritten("nombre_completo", q) + ")"
  {
    QuoteFreeAgrees("cedula", q);
    QuoteFreeAgrees("nombre_completo", q);
  }

  const PersonaRequired := "cedula y nombre_completo son requeridos"

  /** POST /: rejected without touching the table when the ID or the name is
      empty after sanitising; otherwise the first record with that ID gets a
      new name and visit time, and only when there is none is a record inserted. */
  function PostPersona(t: seq<Persona>, body: PersonaBody, newId: string, now: string): (r: Reply<Persona>)
    ensures r.response.Rejected? <==> Sanitize(body.cedula) == "" || Sanitize(body.nombre) == ""
    ensures r.response.Rejected? ==> r.table == t
    ensures r.response.Saved? ==>
              && r.response.record.cedula == Sanitize(body.cedula)
              && r.response.record.nombre == Sanitize(body.nombre)
              && r.response.record.ultimaVisita == now
              && r.response.record in r.table
    ensures r.response.Saved? && !r.response.created ==>
              var k := FindByCedula(t, Sanitize(body.cedula));
              && k.Some?
              && r.response.record == t[k.value].(nombre := Sanitize(body.nombre), ultimaVisita := now)
              && r.table == t[k.value := r.response.record]
    ensures r.response.Saved? && r.response.created ==>
              && (forall k :: 0 <= k < |t| ==> t[k].cedula != Sanitize(body.cedula))
              && r.response.record.id == newId
              && r.table == t + [r.response.record]
  {
    var cedula := Sanitize(body.cedula);
    var nombre := Sanitize(body.nombre);
    if cedula == "" || nombre == "" then Reply(Rejected(PersonaRequired), t)
    else match FindByCedula(t, cedula)
      case Some(k) =>
        var updated := t[k].(nombre := nombre, ultimaVisita := now);
        assert t[k := updated][k] == updated;
        Reply(Saved(false, updated), t[k := updated])
      case None =>
        var created := Persona(newId, cedula, nombre, now);
        Reply(Saved(true, created), t + [created])
  }

  /** The POST never introduces a second record for an ID. */
  lemma PostKeepsCedulasUnique(t: seq<Persona>, body: PersonaBody, newId: string, now: string)
    requires UniqueCedulas(t)
    ensures UniqueCedulas(PostPersona(t, body, newId, now).table)
  {
    var r := PostPersona(t, body, newId, now);
    var t' := r.table;
    if r.response.Saved? && r.response.created {
      forall i, j | 0 <= i < j < |t'| ensures t'[i].cedula != t'[j].cedula {
        if j == |t| {
          assert t'[i] == t[i];
        } else {
          assert t'[i] == t[i] && t'[j] == t[j];
        }
      }
    } else if r.response.Saved? {
      var k := FindByCedula(t, Sanitize(body.cedula)).value;
      forall i, j | 0 <= i < j < |t'| ensures t'[i].cedula != t'[j].cedula {
        assert t'[i].cedula == t[i].cedula && t'[j].cedula == t[j].cedula;
      }
    }
  }

  /** Posting the same ID a second time updates the record the first post
      left, and never inserts. */
  lemma SecondPostUpdates(t: seq<Persona>, b1: PersonaBody, b2: PersonaBody,
                          id1: string, id2: string, now1: string, now2: string)
    requires PostPersona(t, b1, id1, now1).response.Saved?
    requires Sanitize(b2.cedula) == Sanitize(b1.cedula) && Sanitize(b2.nombre) != ""
    ensures var t1 := PostPersona(t, b1, id1, now1).table;
            var r2 := PostPersona(t1, b2, id2, now2);
            && r2.response == Saved(false, r2.response.record)
            && |r2.table| == |t1|
  {
    var r1 := PostPersona(t, b1, id1, now1);
    var c := Sanitize(b1.cedula);
    var t1 := r1.table;
    if r1.response.created {
      assert t1[|t|].cedula == c;
    } else {
      var k := FindByCedula(t, c).value;
      assert t1[k].cedula == c;
    }
    assert FindByCedula(t1, c).Some?;
  }
}

=== FILE: registration.dfy ===
/** Registering an access event from the form (frontend/app.js): the three
    backend requests of `registerEvent` with the client's vehicle cache in
    between, the offline queue and its flush, and the submit handler's
    validation, method choice and online/offline branch. The backend is the
    route model; the network is an oracle saying how many requests of one
    registration are answered before the connection fails. */
module Registration {
  import opened Basics
  import opened Text
  import opened Formula
  import opened Store
  import Personas
  import Vehiculos
  import Eventos
  import Session

  /** The backend's three tables. */
  datatype Db = Db(personas: seq<Persona>, vehiculos: seq<Vehiculo>, eventos: seq<Evento>)

  /** The fields `registerEvent` sends. `placa` is `null` without a vehicle. */
  datatype Payload = Payload(cedula: string, nombre: string, destino: string, tipo: string,
                             metodo: string, placa: Option<string>)

  /** One entry of the offline queue, stamped with the client's clock. */
  datatype Item = Item(payload: Payload, ts: int)

  /** The form's state: the person last looked up or registered, the vehicles
      shown for them (the vehicle cache), the recent destinations and the
      offline queue. */
  datatype Client = Client(lastPerson: Option<Persona>, lastVehiculos: seq<Vehiculo>,
                           destinos: seq<string>, queue: seq<Item>)

  /** What the world supplies to one registration: the ids the store gives new
      records, the server's clock, and how many of the requests are answered
      before the network fails. */
  datatype Attempt = Attempt(personaId: string, vehiculoId: string, eventoId: string, now: string, answered: nat)

  datatype Outcome = Registered(evento: Evento) | Failed

  /** Both sides after one registration, and how it ended. */
  datatype Step = Step(db: Db, client: Client, outcome: Outcome)

  /** A vehicle is involved only when the plate is present and non-empty. */
  predicate WantsVehicle(p: Payload) {
    p.placa.Some? && p.placa.value != ""
  }

  /** The first cached vehicle with exactly this plate; its owners are not looked at. */
  function CachedVehicle(cache: seq<Vehiculo>, placa: string): (r: Option<nat>)
    ensures r.None? <==> forall k :: 0 <= k < |cache| ==> cache[k].placa != placa
    ensures r.Some? ==> r.value < |cache| && cache[r.value].placa == placa
    ensures r.Some? ==> forall k :: 0 <= k < r.value ==> cache[k].placa != placa
  {
    First(cache, (v: Vehiculo) => v.placa == placa)
  }

  /** The vehicle link the event route stores for a sent vehicle id. */
  function IdLink(id: string): (r: Option<seq<string>>)
    ensures r.Some? <==> Sanitize(Some(id)) != ""
    ensures r.Some? ==> r.value == [Sanitize(Some(id))]
  {
    if Sanitize(Some(id)) == "" then None else Some([Sanitize(Some(id))])
  }

  /** The vehicle step of `registerEvent` after the person was saved.
      `sent` counts the requests it made, `link` is the vehicle id it found. */
  datatype VehicleStep = VehicleStep(db: Db, client: Client, ok: bool, link: Option<string>, sent: nat)

  function ResolveVehicle(db: Db, client: Client, p: Payload, personaId: string, a: Attempt): (r: VehicleStep)
    ensures r.db.personas == db.personas && r.db.eventos == db.eventos
    ensures r.client.lastPerson == client.lastPerson && r.client.destinos == client.destinos
    ensures r.client.queue == client.queue
    ensures r.sent <= 1
    ensures !WantsVehicle(p) ==> r == VehicleStep(db, client, true, None, 0)
    ensures WantsVehicle(p) && CachedVehicle(client.lastVehiculos, p.placa.value).Some? ==>
              r == VehicleStep(db, client, true,
                               Some(client.lastVehiculos[CachedVehicle(client.lastVehiculos, p.placa.value).value].id), 0)
    ensures WantsVehicle(p) && CachedVehicle(client.lastVehiculos, p.placa.value).None? ==>
              && r.sent == 1
              && (a.answered < 2 ==> r == VehicleStep(db, client, false, None, 1))
              && (r.ok ==> && |r.client.lastVehiculos| == |client.lastVehiculos| + 1
                           && r.client.lastVehiculos[1..] == client.lastVehiculos
                           && r.link == Some(r.client.lastVehiculos[0].id)
                           && r.client.lastVehiculos[0].placa == ToUpper(Sanitize(p.placa))
                           && Sanitize(Some(personaId)) in r.client.lastVehiculos[0].owners
                           && r.client.lastVehiculos[0] in r.db.vehiculos)
              && (!r.ok ==> r.client == client)
              && (a.answered >= 2 ==> (r.ok <==> ToUpper(Sanitize(p.placa)) != "" && Sanitize(Some(personaId)) != ""))
  {
    if !WantsVehicle(p) then VehicleStep(db, client, true, None, 0)
    else
      var placa := p.placa.value;
      match CachedVehicle(client.lastVehiculos, placa)
      case Some(k) => VehicleStep(db, client, true, Some(client.lastVehiculos[k].id), 0)
      case None =>
        if a.answered < 2 then VehicleStep(db, client, false, None, 1)
        else
          var vr := Vehiculos.PostVehiculo(db.vehiculos, Vehiculos.VehiculoBody(Some(placa), Some(personaId), None), a.vehiculoId);
          var db' := db.(vehiculos := vr.table);
          match vr.response
          case Rejected(_) => VehicleStep(db', client, false, None, 1)
          case Saved(_, v) =>
            assert v in vr.table;
            VehicleStep(db', client.(lastVehiculos := [v] + client.lastVehiculos), true, Some(v.id), 1)
  }

  /** The event body `registerEvent` sends: no text copies, no observation. */
  function EventBody(p: Payload, personaId: string, link: Option<string>): Eventos.EventoBody {
    Eventos.EventoBody(Some(personaId), link, Some(p.destino), Some(p.tipo), Some(p.metodo), None, None, None, None)
  }

  /** `registerEvent`: save the person, resolve the vehicle (cache first, then
      find-or-create), then save the event. Any rejected or unanswered request
      ends the registration; what earlier requests wrote stays written. */
  function RegisterEvent(db: Db, client: Client, p: Payload, a: Attempt): (s: Step)
    ensures a.answered == 0 ==> s == Step(db, client, Failed)
    ensures s.client.destinos == client.destinos && s.client.queue == client.queue
    ensures |s.db.eventos| <= |db.eventos| + 1
    ensures s.outcome.Registered? ==>
              var e := s.outcome.evento;
              && s.db.eventos == db.eventos + [e]
              && s.client.lastPerson.Some?
              && s.client.lastPerson.value.cedula == Sanitize(Some(p.cedula))
              && s.client.lastPerson.value.nombre == Sanitize(Some(p.nombre))
              && s.client.lastPerson.value.ultimaVisita == a.now
              && s.client.lastPerson.value in s.db.personas
              && e.id == a.eventoId && e.fecha == a.now
              && e.persona == [Sanitize(Some(s.client.lastPerson.value.id))]
              && e.destino == Sanitize(Some(p.destino))
              && e.tipo == (if Sanitize(Some(p.tipo)) == "" then "entrada" else Sanitize(Some(p.tipo)))
              && e.metodo == (if Sanitize(Some(p.metodo)) == "" then "manual" else Sanitize(Some(p.metodo)))
              && e.cedula.None? && e.nombre.None? && e.placa.None? && e.observacion.None?
    ensures s.outcome.Registered? && !WantsVehicle(p) ==>
              && s.outcome.evento.vehiculo.None?
              && s.db.vehiculos == db.vehiculos
              && s.client.lastVehiculos == client.lastVehiculos
    ensures s.outcome.Registered? && WantsVehicle(p) && CachedVehicle(client.lastVehiculos, p.placa.value).Some? ==>
              var v := client.lastVehiculos[CachedVehicle(client.lastVehiculos, p.placa.value).value];
              && s.outcome.evento.vehiculo == IdLink(v.id)
              && s.db.vehiculos == db.vehiculos
              && s.client.lastVehiculos == client.lastVehiculos
    ensures s.outcome.Registered? && WantsVehicle(p) && CachedVehicle(client.lastVehiculos, p.placa.value).None? ==>
              && |s.client.lastVehiculos| == |client.lastVehiculos| + 1
              && s.client.lastVehiculos[1..] == client.lastVehiculos
              && s.client.lastVehiculos[0].placa == ToUpper(Sanitize(p.placa))
              && Sanitize(Some(s.client.lastPerson.value.id)) in s.client.lastVehiculos[0].owners
              && s.client.lastVehiculos[0] in s.db.vehiculos
              && s.outcome.evento.vehiculo == IdLink(s.client.lastVehiculos[0].id)
  {
    if a.answered == 0 then Step(db, client, Failed)
    else
      var pr := Personas.PostPersona(db.personas, Personas.PersonaBody(Some(p.cedula), Some(p.nombre)), a.personaId, a.now);
      var db1 := db.(personas := pr.table);
      match pr.response
      case Rejected(_) => Step(db1, client, Failed)
      case Saved(_, persona) =>
        var client1 := client.(lastPerson := Some(persona));
        SaveEvent(ResolveVehicle(db1, client1, p, persona.id, a), p, persona.id, a)
  }

  /** The last request of `registerEvent`, made only when the vehicle step succeeded. */
  function SaveEvent(vs: VehicleStep, p: Payload, personaId: string, a: Attempt): (s: Step)
    ensures s.client == vs.client
    ensures s.db.personas == vs.db.personas && s.db.vehiculos == vs.db.vehiculos
    ensures |s.db.eventos| <= |vs.db.eventos| + 1
    ensures !vs.ok || a.answered < 2 + vs.sent ==> s == Step(vs.db, vs.client, Failed)
    ensures vs.ok && a.answered >= 2 + vs.sent ==>
              (s.outcome.Registered? <==> Sanitize(Some(personaId)) != "" && Sanitize(Some(p.destino)) != "")
    ensures s.outcome.Registered? ==>
              var e := s.outcome.evento;
              && s.db.eventos == vs.db.eventos + [e]
              && e.id == a.eventoId && e.fecha == a.now
              && e.persona == [Sanitize(Some(personaId))]
              && e.destino == Sanitize(Some(p.destino))
              && e.tipo == (if Sanitize(Some(p.tipo)) == "" then "entrada" else Sanitize(Some(p.tipo)))
              && e.metodo == (if Sanitize(Some(p.metodo)) == "" then "manual" else Sanitize(Some(p.metodo)))
              && e.cedula.None? && e.nombre.None? && e.placa.None? && e.observacion.None?
              && e.vehiculo == (if vs.link.Some? then IdLink(vs.link.value) else None)
  {
    if !vs.ok || a.answered < 2 + vs.sent then Step(vs.db, vs.client, Failed)
    else
      var er := Eventos.PostEvento(vs.db.eventos, EventBody(p, personaId, vs.link), a.eventoId, a.now);
      var db3 := vs.db.(eventos := er.table);
      match er.response
      case Rejected(_) => Step(db3, vs.client, Failed)
      case Saved(_, e) => Step(db3, vs.client, Registered(e))
  }

  /** What the form guarantees of a payload it sends: every required text
      survives the server's trimming, and so does a plate that is sent. */
  predicate ValidPayload(p: Payload) {
    && Sanitize(Some(p.cedula)) != "" && Sanitize(Some(p.nombre)) != "" && Sanitize(Some(p.destino)) != ""
    && (WantsVehicle(p) ==> Sanitize(p.placa) != "")
  }

  /** Every stored person has an id the event route accepts. */
  predicate PersonIdsPresent(t: seq<Persona>) {
    forall k :: 0 <= k < |t| ==> Sanitize(Some(t[k].id)) != ""
  }

  /** The person a successful person POST returns has a usable id. */
  lemma SavedPersonHasId(t: seq<Persona>, body: Personas.PersonaBody, newId: string, now: string)
    requires PersonIdsPresent(t) && Sanitize(Some(newId)) != ""
    requires Personas.PostPersona(t, body, newId, now).response.Saved?
    ensures Sanitize(Some(Personas.PostPersona(t, body, newId, now).response.record.id)) != ""
  {
    var r := Personas.PostPersona(t, body, newId, now);
    if !r.response.created {
      var k := Personas.FindByCedula(t, Sanitize(body.cedula)).value;
      assert r.response.record.id == t[k].id;
    }
  }

  /** A valid payload whose requests are all answered is registered: none of
      the three routes rejects what the form sends. */
  lemma AnsweredValidPayloadRegisters(db: Db, client: Client, p: Payload, a: Attempt)
    requires ValidPayload(p) && PersonIdsPresent(db.personas) && Sanitize(Some(a.personaId)) != ""
    requires a.answered >= 3
    ensures RegisterEvent(db, client, p, a).outcome.Registered?
  {
    var body := Personas.PersonaBody(Some(p.cedula), Some(p.nombre));
    var pr := Personas.PostPersona(db.personas, body, a.personaId, a.now);
    assert pr.response.Saved?;
    var persona := pr.response.record;
    SavedPersonHasId(db.personas, body, a.personaId, a.now);
    var db1 := db.(personas := pr.table);
    var client1 := client.(lastPerson := Some(persona));
    var vs := ResolveVehicle(db1, client1, p, persona.id, a);
    ValidVehicleStep(db1, client1, p, persona.id, a);
    assert SaveEvent(vs, p, persona.id, a).outcome.Registered?;
    assert RegisterEvent(db, client, p, a) == SaveEvent(vs, p, persona.id, a);
  }

  /** With two requests answered, the vehicle step of a valid payload succeeds. */
  lemma ValidVehicleStep(db: Db, client: Client, p: Payload, personaId: string, a: Attempt)
    requires ValidPayload(p) && Sanitize(Some(personaId)) != "" && a.answered >= 2
    ensures ResolveVehicle(db, client, p, personaId, a).ok
  {
    if WantsVehicle(p) {
      ToUpperTrimmed(Sanitize(p.placa));
    }
  }


  /** Within one flush, a second queued registration with the same plate
      reuses the vehicle the first one created, whoever the second person is:
      nothing is written to the vehicle table for them, and their event links
      the vehicle whose owner is the first person. */
  lemma SamePlateSharesVehicle(db: Db, client: Client, p1: Payload, p2: Payload, a1: Attempt, a2: Attempt)
    requires WantsVehicle(p1) && p2.placa == p1.placa
    requires p1.placa.value == ToUpper(Sanitize(p1.placa))
    requires CachedVehicle(client.lastVehiculos, p1.placa.value).None?
    requires RegisterEvent(db, client, p1, a1).outcome.Registered?
    ensures var s1 := RegisterEvent(db, client, p1, a1);
            var v := s1.client.lastVehiculos[0];
            var s2 := RegisterEvent(s1.db, s1.client, p2, a2);
            && v.placa == p1.placa.value
            && Sanitize(Some(s1.client.lastPerson.value.id)) in v.owners
            && (s2.outcome.Registered? ==>
                  && s2.outcome.evento.vehiculo == IdLink(v.id)
                  && s2.db.vehiculos == s1.db.vehiculos)
  {
    var s1 := RegisterEvent(db, client, p1, a1);
    CachedAtFront(s1.client.lastVehiculos, p1.placa.value);
  }

  /** A vehicle at the front of the cache is the one the cache finds for its plate. */
  lemma CachedAtFront(cache: seq<Vehiculo>, placa: string)
    requires |cache| > 0 && cache[0].placa == placa
    ensures CachedVehicle(cache, placa) == Some(0)
  {
  }

  // ---------------------------------------------------------------------------
  // Offline queue
  // ---------------------------------------------------------------------------

  /** `enqueueOffline`: the item goes to the back of the queue. */
  function EnqueueOffline(queue: seq<Item>, p: Payload, ts: int): (q: seq<Item>)
    ensures |q| == |queue| + 1 && q[..|queue|] == queue && q[|queue|] == Item(p, ts)
  {
    queue + [Item(p, ts)]
  }

  /** The items whose attempt failed, in queue order. */
  function Survivors<T>(items: seq<T>, failed: seq<bool>): (r: seq<T>)
    requires |failed| == |items|
    ensures |r| <= |items|
    ensures (forall i :: 0 <= i < |failed| ==> failed[i]) ==> r == items
    ensures (forall i :: 0 <= i < |failed| ==> !failed[i]) ==> r == []
    decreases |items|
  {
    if |items| == 0 then []
    else
      var n := |items| - 1;
      assert items[..n] + [items[n]] == items;
      Survivors(items[..n], failed[..n]) + (if failed[n] then [items[n]] else [])
  }

  /** Both sides after the first registrations of a flush, and which failed. */
  datatype Run = Run(db: Db, client: Client, failed: seq<bool>)

  /** One more registration of a flush, on top of the ones before it. */
  function Advance(prev: Run, p: Payload, a: Attempt): (r: Run)
    ensures |r.failed| == |prev.failed| + 1 && r.failed[..|prev.failed|] == prev.failed
    ensures r.client.queue == prev.client.queue && r.client.destinos == prev.client.destinos
    ensures a.answered == 0 ==> r.db == prev.db && r.client == prev.client && r.failed[|prev.failed|]
  {
    var s := RegisterEvent(prev.db, prev.client, p, a);
    Run(s.db, s.client, prev.failed + [s.outcome.Failed?])
  }

  /** The registrations of a flush one after the other, each with its own
      attempt `env(i)`; the client's cache and last person carry over. */
  function Replay(db: Db, client: Client, items: seq<Item>, env: nat -> Attempt): (r: Run)
    ensures |r.failed| == |items|
    ensures r.client.queue == client.queue && r.client.destinos == client.destinos
    ensures (forall i :: 0 <= i < |items| ==> env(i).answered == 0) ==>
              r.db == db && r.client == client && forall i :: 0 <= i < |items| ==> r.failed[i]
    decreases |items|
  {
    if |items| == 0 then Run(db, client, [])
    else
      var prev := Replay(db, client, items[..|items| - 1], env);
      var r := Advance(prev, items[|items| - 1].payload, env(|items| - 1));
      assert forall i :: 0 <= i < |items| - 1 ==> r.failed[i] == prev.failed[i] by {
        assert forall i :: 0 <= i < |items| - 1 ==> r.failed[..|prev.failed|][i] == r.failed[i];
      }
      r
  }

  /** One more item of a flush is one more registration. */
  lemma ReplaySnoc(db: Db, client: Client, items: seq<Item>, i: nat, env: nat -> Attempt)
    requires i < |items|
    ensures Replay(db, client, items[..i + 1], env) == Advance(Replay(db, client, items[..i], env), items[i].payload, env(i))
  {
    assert items[..i + 1][..i] == items[..i];
  }

  lemma SurvivorsSnoc<T>(items: seq<T>, i: nat, failed: seq<bool>, f: bool)
    requires i < |items| && |failed| == i
    ensures Survivors(items[..i + 1], failed + [f])
         == Survivors(items[..i], failed) + (if f then [items[i]] else [])
  {
    assert items[..i + 1][..i] == items[..i] && (failed + [f])[..i] == failed;
  }


  /** One turn of the flush loop keeps its two invariants. */
  lemma FlushStep(db: Db, client: Client, queue: seq<Item>, i: nat, env: nat -> Attempt, run: Run, kept: seq<Item>)
    requires i < |queue|
    requires Replay(db, client, queue[..i], env) == run
    requires kept == Survivors(queue[..i], run.failed)
    ensures var next := Advance(run, queue[i].payload, env(i));
            && |next.failed| == i + 1
            && Replay(db, client, queue[..i + 1], env) == next
            && Survivors(queue[..i + 1], next.failed) == if next.failed[i] then kept + [queue[i]] else kept
  {
    var next := Advance(run, queue[i].payload, env(i));
    ReplaySnoc(db, client, queue, i, env);
    var failed := next.failed[i];
    assert next.failed == run.failed + [failed];
    SurvivorsSnoc(queue, i, run.failed, failed);
  }

  /** A flush in which no request is answered changes nothing and keeps the whole queue. */
  lemma QuietFlush(db: Db, client: Client, env: nat -> Attempt)
    requires forall i :: 0 <= i < |client.queue| ==> env(i).answered == 0
    ensures var run := Replay(db, client, client.queue, env);
            run.db == db && run.client.(queue := Survivors(client.queue, run.failed)) == client
  {
    var run := Replay(db, client, client.queue, env);
    assert Survivors(client.queue, run.failed) == client.queue;
  }

  /** `flushOffline`: nothing happens offline or with an empty queue;
      otherwise every queued payload is registered in order and the queue
      becomes exactly the items whose registration failed, in their order. */
  method FlushOffline(online: bool, db: Db, client: Client, env: nat -> Attempt) returns (db': Db, client': Client)
    ensures !online || client.queue == [] ==> db' == db && client' == client
    ensures online && client.queue != [] ==>
              var run := Replay(db, client, client.queue, env);
              && db' == run.db
              && client' == run.client.(queue := Survivors(client.queue, run.failed))
    ensures (forall i :: 0 <= i < |client.queue| ==> env(i).answered == 0) ==> db' == db && client' == client
  {
    if !online || |client.queue| == 0 {
      return db, client;
    }
    db', client' := FlushQueue(db, client, env);
    if forall i :: 0 <= i < |client.queue| ==> env(i).answered == 0 {
      QuietFlush(db, client, env);
    }
  }

  /** The loop of `flushOffline`: each queued payload in order, collecting the
      ones whose registration failed. */
  method FlushQueue(db: Db, client: Client, env: nat -> Attempt) returns (db': Db, client': Client)
    ensures var run := Replay(db, client, client.queue, env);
            && db' == run.db
            && client' == run.client.(queue := Survivors(client.queue, run.failed))
  {
    var queue := client.queue;
    var kept: seq<Item> := [];
    var run := Run(db, client, []);
    for i := 0 to |queue|
      invariant Replay(db, client, queue[..i], env) == run
      invariant kept == Survivors(queue[..i], run.failed)
    {
      var next := Advance(run, queue[i].payload, env(i));
      FlushStep(db, client, queue, i, env, run, kept);
      if next.failed[i] {
        kept := kept + [queue[i]];
      }
      run := next;
    }
    assert queue[..|queue|] == queue;
    db', client' := run.db, run.client.(queue := kept);
  }


  // ---------------------------------------------------------------------------
  // The submit handler
  // ---------------------------------------------------------------------------

  /** The form's inputs when "Registrar" is pressed; `salida` is the toggle. */
  datatype Form = Form(cedula: string, nombre: string, destino: string, conVehiculo: bool, placa: string, salida: bool)

  const MissingIdOrName := "C\U{E9}dula y nombre son requeridos."
  const MissingDestino := "Destino es requerido."
  const RegisterFailed := "Error registrando. Intenta de nuevo."

  /** The ID as read from its input: trimmed, then every whitespace run
      deleted, which leaves exactly the typed non-whitespace characters in
      order (so the trim changes nothing). */
  function CedulaInput(raw: string): (c: string)
    ensures NoSpace(c) && Trimmed(c)
    ensures c == Keep(raw, NotSpace)
  {
    RemoveSpacesTrim(raw);
    RemoveSpacesIsFilter(raw);
    RemoveSpaces(Trim(raw))
  }

  datatype Checked = Invalid(message: string) | Valid(payload: Payload)

  /** The handler up to building the payload: the ID and name are checked
      first, then the destination; the method is "escaneo" exactly when the
      remembered person has the typed ID. */
  function CheckForm(form: Form, lastPerson: Option<Persona>): (r: Checked)
    ensures r.Invalid? <==> CedulaInput(form.cedula) == "" || Trim(form.nombre) == "" || Trim(form.destino) == ""
    ensures r.Invalid? ==> (r.message == MissingIdOrName <==> CedulaInput(form.cedula) == "" || Trim(form.nombre) == "")
    ensures r.Invalid? ==> r.message == MissingIdOrName || r.message == MissingDestino
    ensures r.Valid? ==> ValidPayload(r.payload)
    ensures r.Valid? ==> && r.payload.cedula == CedulaInput(form.cedula)
                         && r.payload.nombre == Trim(form.nombre)
                         && r.payload.destino == Trim(form.destino)
    ensures r.Valid? ==> (r.payload.metodo == "escaneo" <==> lastPerson.Some? && lastPerson.value.cedula == r.payload.cedula)
    ensures r.Valid? ==> r.payload.metodo == "escaneo" || r.payload.metodo == "manual"
    ensures r.Valid? ==> (r.payload.tipo == "salida" <==> form.salida) && (r.payload.tipo == "salida" || r.payload.tipo == "entrada")
    ensures r.Valid? ==> (r.payload.placa.Some? <==> form.conVehiculo)
    ensures r.Valid? && form.conVehiculo ==> r.payload.placa.value == ToUpper(Trim(form.placa))
  {
    var cedula := CedulaInput(form.cedula);
    var nombre := Trim(form.nombre);
    var destino := Trim(form.destino);
    if cedula == "" || nombre == "" then Invalid(MissingIdOrName)
    else if destino == "" then Invalid(MissingDestino)
    else
      var p := FormPayload(form, lastPerson);
      PayloadValid(p, form.placa);
      Valid(p)
  }

  /** The payload object the handler builds. */
  function FormPayload(form: Form, lastPerson: Option<Persona>): (p: Payload)
    ensures p.cedula == CedulaInput(form.cedula) && p.nombre == Trim(form.nombre) && p.destino == Trim(form.destino)
    ensures p.metodo == "escaneo" <==> lastPerson.Some? && lastPerson.value.cedula == p.cedula
    ensures p.metodo == "escaneo" || p.metodo == "manual"
    ensures (p.tipo == "salida" <==> form.salida) && (p.tipo == "salida" || p.tipo == "entrada")
    ensures p.placa.Some? <==> form.conVehiculo
    ensures form.conVehiculo ==> p.placa.value == ToUpper(Trim(form.placa))
  {
    var cedula := CedulaInput(form.cedula);
    var metodo := if lastPerson.Some? && lastPerson.value.cedula == cedula then "escaneo" else "manual";
    Payload(cedula, Trim(form.nombre), Trim(form.destino), if form.salida then "salida" else "entrada", metodo,
            if form.conVehiculo then Some(ToUpper(Trim(form.placa))) else None)
  }

  /** Trimmed non-empty texts and an upper-cased trimmed plate pass the server's checks. */
  lemma PayloadValid(p: Payload, rawPlaca: string)
    requires p.cedula != "" && Trimmed(p.cedula)
    requires p.nombre != "" && Trimmed(p.nombre)
    requires p.destino != "" && Trimmed(p.destino)
    requires p.placa.Some? ==> p.placa.value == ToUpper(Trim(rawPlaca))
    ensures ValidPayload(p)
  {
    TrimOfTrimmed(p.cedula);
    TrimOfTrimmed(p.nombre);
    TrimOfTrimmed(p.destino);
    if p.placa.Some? {
      ToUpperTrimmed(Trim(rawPlaca));
      TrimOfTrimmed(p.placa.value);
    }
  }

  /** A plate the form sends is already in the form the vehicle route stores. */
  lemma FormPlateNormalised(form: Form, lastPerson: Option<Persona>)
    requires CheckForm(form, lastPerson).Valid? && WantsVehicle(CheckForm(form, lastPerson).payload)
    ensures var p := CheckForm(form, lastPerson).payload;
            p.placa.value == ToUpper(Sanitize(p.placa))
  {
    var placa := ToUpper(Trim(form.placa));
    ToUpperTrimmed(Trim(form.placa));
    TrimOfTrimmed(placa);
    ToUpperIdempotent(Trim(form.placa));
  }

  /** Both sides after pressing "Registrar", and the message under the form. */
  datatype Submitted = Submitted(db: Db, client: Client, message: string)

  /** `clearForm`: the remembered person and their vehicles are forgotten. */
  function Cleared(c: Client): Client {
    c.(lastPerson := None, lastVehiculos := [])
  }

  /** The submit handler: an invalid form only shows its message; otherwise
      the destination is pushed, and the payload is queued offline (clearing
      the form) or registered online (clearing the form on success, showing
      an error otherwise). */
  function Submit(db: Db, client: Client, form: Form, online: bool, ts: int, a: Attempt): (r: Submitted)
    ensures CheckForm(form, client.lastPerson).Invalid? ==>
              r == Submitted(db, client, CheckForm(form, client.lastPerson).message)
    ensures CheckForm(form, client.lastPerson).Valid? ==>
              r.client.destinos == Session.PushDestino(client.destinos, Trim(form.destino))
    ensures CheckForm(form, client.lastPerson).Valid? && !online ==>
              && r.db == db && r.message == ""
              && r.client.queue == EnqueueOffline(client.queue, CheckForm(form, client.lastPerson).payload, ts)
              && r.client.lastPerson.None? && r.client.lastVehiculos == []
    ensures CheckForm(form, client.lastPerson).Valid? && online ==>
              var s := RegisterEvent(db, client.(destinos := Session.PushDestino(client.destinos, Trim(form.destino))),
                                     CheckForm(form, client.lastPerson).payload, a);
              && r.db == s.db && r.client.queue == client.queue
              && (r.message == "" <==> s.outcome.Registered?)
              && (s.outcome.Registered? ==> r.client.lastPerson.None? && r.client.lastVehiculos == [])
              && (s.outcome.Failed? ==> r.message == RegisterFailed && r.client == s.client)
  {
    match CheckForm(form, client.lastPerson)
    case Invalid(message) => Submitted(db, client, message)
    case Valid(p) =>
      var pushed := client.(destinos := Session.PushDestino(client.destinos, Trim(form.destino)));
      if !online then
        Submitted(db, Cleared(pushed.(queue := EnqueueOffline(client.queue, p, ts))), "")
      else
        var s := RegisterEvent(db, pushed, p, a);
        if s.outcome.Registered? then Submitted(s.db, Cleared(s.client), "")
        else Submitted(s.db, s.client, RegisterFailed)
  }

  /** The handler followed by the `refreshLive` it starts after queueing
      offline or after registering online, whose first step is
      `flushOffline`. Offline that flush does nothing; after an online
      registration every queued item is replayed behind the new event. An
      invalid form or a failed registration starts no refresh. */
  method SubmitAndRefresh(db: Db, client: Client, form: Form, online: bool, ts: int, a: Attempt, env: nat -> Attempt)
    returns (db': Db, client': Client, message: string)
    ensures message == Submit(db, client, form, online, ts, a).message
    ensures var r := Submit(db, client, form, online, ts, a);
            CheckForm(form, client.lastPerson).Invalid? || !online || r.message != "" || client.queue == [] ==>
              db' == r.db && client' == r.client
    ensures var r := Submit(db, client, form, online, ts, a);
            CheckForm(form, client.lastPerson).Valid? && online && r.message == "" && client.queue != [] ==>
              var run := Replay(r.db, r.client, client.queue, env);
              && db' == run.db
              && client' == run.client.(queue := Survivors(client.queue, run.failed))
  {
    var r := Submit(db, client, form, online, ts, a);
    message := r.message;
    if CheckForm(form, client.lastPerson).Valid? && (!online || r.message == "") {
      db', client' := FlushOffline(online, r.db, r.client, env);
    } else {
      db', client' := r.db, r.client;
    }
  }

  /** A valid form submitted online with every request answered is registered,
      as long as the stored persons and the new person id are usable. */
  lemma AnsweredSubmitRegisters(db: Db, client: Client, form: Form, ts: int, a: Attempt)
    requires CheckForm(form, client.lastPerson).Valid?
    requires PersonIdsPresent(db.personas) && Sanitize(Some(a.personaId)) != "" && a.answered >= 3
    ensures Submit(db, client, form, true, ts, a).message == ""
  {
    var pushed := client.(destinos := Session.PushDestino(client.destinos, Trim(form.destino)));
    AnsweredValidPayloadRegisters(db, pushed, CheckForm(form, client.lastPerson).payload, a);
  }
}

=== FILE: session.dfy ===
/** Two small pieces of client state kept by the registration form
    (frontend/app.js): the most-recent-first list of destinations offered as
    suggestions, and the entry/exit toggle suggested from the person's newest
    event in the history. */
module Session {
  import opened Basics
  import opened Text
  import opened Formula
  import opened Store
  import Eventos

  /** How many recent destinations are kept. */
  const MaxDestinos := 10

  /** The list without any copy of `d`, order kept. */
  function Without(l: seq<string>, d: string): (r: seq<string>)
    ensures forall i :: 0 <= i < |r| ==> r[i] != d && r[i] in l
    ensures forall i :: 0 <= i < |l| && l[i] != d ==> l[i] in r
  {
    Keep(l, (x: string) => x != d)
  }

  /** `pushDestino`: an empty destination changes nothing; otherwise it moves
      to the front, every other copy of it goes, the rest keep their relative
      order, and the list is cut to ten entries. */
  function PushDestino(l: seq<string>, d: string): (r: seq<string>)
    ensures d == "" ==> r == l
    ensures d != "" ==> |r| >= 1 && r[0] == d
    ensures d != "" ==> forall i :: 1 <= i < |r| ==> r[i] != d
    ensures d != "" ==> |r| <= MaxDestinos
    ensures d != "" ==> |r| == if 1 + |Without(l, d)| <= MaxDestinos then 1 + |Without(l, d)| else MaxDestinos
    ensures d != "" ==> r[1..] == Without(l, d)[..|r| - 1]
  {
    if d == "" then l
    else
      var full := [d] + Without(l, d);
      if |full| <= MaxDestinos then full else full[..MaxDestinos]
  }

  /** Pushing the destination that is already at the front changes nothing. */
  lemma PushDestinoIdempotent(l: seq<string>, d: string)
    ensures PushDestino(PushDestino(l, d), d) == PushDestino(l, d)
  {
    if d != "" {
      var r := PushDestino(l, d);
      KeepAll(r[1..], (x: string) => x != d);
      assert Without(r, d) == r[1..] by {
        assert r == [r[0]] + r[1..];
      }
      assert [d] + r[1..] == r;
    }
  }

  /** A list without repeats stays without repeats. */
  lemma PushDestinoDistinct(l: seq<string>, d: string)
    requires Distinct(l)
    ensures Distinct(PushDestino(l, d))
  {
    if d != "" {
      var w := Without(l, d);
      KeepDistinct(l, (x: string) => x != d);
      var full := [d] + w;
      forall i, j | 0 <= i < j < |full| ensures full[i] != full[j] {
        if i > 0 {
          assert full[i] == w[i - 1] && full[j] == w[j - 1];
        }
      }
    }
  }

  /** `suggestSalidaIfNeeded` once the history has answered: "salida" when the
      newest event found is an entry, "entrada" otherwise, including when no
      event is found. */
  function SuggestDirection(events: seq<Evento>): (tipo: string)
    ensures tipo == "salida" <==> |events| > 0 && events[0].tipo == "entrada"
    ensures tipo == "salida" || tipo == "entrada"
  {
    if |events| > 0 && events[0].tipo == "entrada" then "salida" else "entrada"
  }

  /** A failed history request leaves the toggle as it was. */
  function SuggestAfterLookup(found: Option<seq<Evento>>, shown: string): (tipo: string)
    ensures found.None? ==> tipo == shown
    ensures found.Some? ==> (tipo == "salida" <==> |found.value| > 0 && found.value[0].tipo == "entrada")
  {
    match found
    case None => shown
    case Some(events) => SuggestDirection(events)
  }

  /** Registering the suggested direction flips the next suggestion. */
  lemma {:induction false} SuggestionAlternates(e: Evento, events: seq<Evento>)
    requires e.tipo == SuggestDirection(events)
    ensures SuggestDirection([e] + events) != SuggestDirection(events)
  {
    assert ([e] + events)[0] == e;
  }

  /** The history request behind the suggestion: `range=all&search=<cedula>`. */
  function DirectionQuery(cedula: string): Eventos.EventoQuery {
    Eventos.EventoQuery(Some("all"), Some(cedula), None)
  }

  /** The suggestion's history request has no time or type clause: it is the
      seven-field "contains" search, whose first field is the ID, so an event of
      any ID that merely contains the looked-up one also counts. */
  lemma DirectionQueryIsContainsSearch(cedula: string, now: int, iso: int -> string)
    requires Sanitize(Some(cedula)) != ""
    ensures Eventos.ListEventos(DirectionQuery(cedula), now, iso).filter
         == Some(Eventos.SearchFormula(Sanitize(Some(cedula))))
    ensures NoBackslash(cedula) ==>
              ReadLiteral(Eventos.SearchLines(Sanitize(Some(cedula)))[0][19..])
                == Some((Sanitize(Some(cedula)), "), LOWER({cedula}))"))
    ensures NoBackslash(cedula) ==>
              var f := Eventos.SearchFormula(Sanitize(Some(cedula)));
              var first := Eventos.SearchLines(Sanitize(Some(cedula)))[0];
              ReadLiteral(f[23..]) == Some((Sanitize(Some(cedula)), "), LOWER({cedula}))" + f[4 + |first|..]))
  {
    Eventos.SearchOnlyListing(cedula, now, iso);
    if NoBackslash(cedula) {
      FirstSearchLine(cedula);
      SentFirstLine(cedula);
    }
  }

  /** In the filter as sent, the first literal reads back the sanitised ID and
      is followed by the `cedula` field reference and the remaining lines. */
  lemma SentFirstLine(cedula: string)
    requires NoBackslash(cedula)
    requires ReadLiteral(Eventos.SearchLines(Sanitize(Some(cedula)))[0][19..])
               == Some((Sanitize(Some(cedula)), "), LOWER({cedula}))"))
    ensures var f := Eventos.SearchFormula(Sanitize(Some(cedula)));
            var first := Eventos.SearchLines(Sanitize(Some(cedula)))[0];
            ReadLiteral(f[23..]) == Some((Sanitize(Some(cedula)), "), LOWER({cedula}))" + f[4 + |first|..]))
  {
    var f := Eventos.SearchFormula(Sanitize(Some(cedula)));
    var first := Eventos.SearchLines(Sanitize(Some(cedula)))[0];
    LiteralInPlace(f, first, Sanitize(Some(cedula)), "), LOWER({cedula}))");
  }

  /** A line placed at index 4 reads the same inside the whole text, with the
      text after the line appended to what follows the literal. */
  lemma LiteralInPlace(f: string, line: string, v: string, tail: string)
    requires At(line, f, 4) && |line| >= 19
    requires ReadLiteral(line[19..]) == Some((v, tail))
    ensures ReadLiteral(f[23..]) == Some((v, tail + f[4 + |line|..]))
  {
    assert f[23..] == line[19..] + f[4 + |line|..];
    ReadLiteralExtend(line[19..], f[4 + |line|..]);
  }

  /** The first line of the search reads back the sanitised ID, in field `cedula`. */
  lemma FirstSearchLine(cedula: string)
    requires NoBackslash(cedula)
    ensures ReadLiteral(Eventos.SearchLines(Sanitize(Some(cedula)))[0][19..])
              == Some((Sanitize(Some(cedula)), "), LOWER({cedula}))"))
  {
    var c := Sanitize(Some(cedula));
    SanitizeNoBackslash(cedula);
    var lines := Eventos.SearchLines(c);
    assert Eventos.SearchFields[0] == "cedula";
    assert ReadLiteral(lines[0][19..]) == Some((c, "), LOWER({" + Eventos.SearchFields[0] + "}))"));
    assert "), LOWER({" + "cedula" + "}))" == "), LOWER({cedula}))";
  }
}

=== FILE: store.dfy ===
/** The record store behind the routes, reduced to what the routes rely on:
    three tables held as sequences in the store's own order, lookups that take
    the first matching record (`maxRecords: 1`), appending inserts and in-place
    patches. A list query is described by the request it sends (filter formula,
    record cap, sort), since evaluating formulas belongs to the store. */
module Store {
  import opened Basics

  datatype Persona = Persona(id: string, cedula: string, nombre: string, ultimaVisita: string)

  /** `owners` is the `persona_cedula` linked-record field: ids of Persona records. */
  datatype Vehiculo = Vehiculo(id: string, placa: string, owners: seq<string>, tipo: Option<string>, activo: bool)

  /** An access event. `persona` and `vehiculo` are linked-record fields;
      `cedula`, `nombre` and `placa` are optional plain-text copies. */
  datatype Evento = Evento(
    id: string,
    persona: seq<string>,
    vehiculo: Option<seq<string>>,
    destino: string,
    tipo: string,
    fecha: string,
    metodo: string,
    observacion: Option<string>,
    cedula: Option<string>,
    nombre: Option<string>,
    placa: Option<string>)

  /** Outcome of a create-or-update route: a 400 rejection, or the record
      returned together with whether it was newly created. */
  datatype Saved<T> = Rejected(error: string) | Saved(created: bool, record: T)

  /** A route's response together with the table as it stands afterwards. */
  datatype Reply<T> = Reply(response: Saved<T>, table: seq<T>)

  datatype SortSpec = SortSpec(field: string, direction: string)

  /** What a route passes as `sort`: nothing, an array of specs, or a JSON string. */
  datatype SortArg = NoSort | SortArray(specs: seq<SortSpec>) | SortText(text: string)

  /** A list request as it reaches the store. */
  datatype Query = Query(filter: Option<string>, maxRecords: nat, sort: seq<SortSpec>)

  /** `airtableGet` turns only an array into sort parameters; anything else is dropped. */
  function SentSort(arg: SortArg): (r: seq<SortSpec>)
    ensures r != [] ==> arg.SortArray?
    ensures arg.SortArray? ==> r == arg.specs
  {
    match arg
    case SortArray(specs) => specs
    case _ => []
  }

  /** An empty formula is not sent at all; `airtableGet` also skips empty parameters. */
  function FilterParam(formula: string): (r: Option<string>)
    ensures r.None? <==> formula == ""
    ensures r.Some? ==> r.value == formula
  {
    if formula == "" then None else Some(formula)
  }

  function MakeQuery(formula: string, maxRecords: nat, sort: SortArg): Query {
    Query(FilterParam(formula), maxRecords, SentSort(sort))
  }
}

=== FILE: text.dfy ===
/** The JavaScript string primitives the access log relies on: the `\s`
    character class (also what `String.prototype.trim` strips), `trim`,
    deleting every whitespace run, collapsing runs to one space, splitting a
    scan payload on newline, pipe and carriage return, and ASCII letter/digit
    classes. */
module Text {
  import opened Basics

  /** JavaScript's `\s`: ECMAScript WhiteSpace plus LineTerminator. */
  predicate IsSpace(c: char) {
    || c == ' ' || c == '\t' || c == '\n' || c == '\U{B}' || c == '\U{C}' || c == '\r'
    || c == '\U{A0}' || c == '\U{1680}' || ('\U{2000}' <= c <= '\U{200A}')
    || c == '\U{2028}' || c == '\U{2029}' || c == '\U{202F}' || c == '\U{205F}'
    || c == '\U{3000}' || c == '\U{FEFF}'
  }

  predicate IsDigit(c: char) { '0' <= c <= '9' }

  predicate IsAsciiAlnum(c: char) {
    IsDigit(c) || 'A' <= c <= 'Z' || 'a' <= c <= 'z'
  }

  /** No whitespace at either end. */
  predicate Trimmed(s: string) {
    |s| == 0 || (!IsSpace(s[0]) && !IsSpace(s[|s| - 1]))
  }

  /** A string survives `filter(Boolean)` when it is not empty. */
  predicate Truthy(s: string) { s != "" }

  predicate NoSpace(s: string) {
    forall i :: 0 <= i < |s| ==> !IsSpace(s[i])
  }

  function TrimStart(s: string): (r: string)
    ensures |r| <= |s| && r == s[|s| - |r|..]
    ensures |r| == 0 || !IsSpace(r[0])
    ensures forall i :: 0 <= i < |s| - |r| ==> IsSpace(s[i])
    decreases |s|
  {
    if |s| > 0 && IsSpace(s[0]) then
      var r := TrimStart(s[1..]);
      TrimStartStep(s, s[1..], r);
      r
    else s
  }

  lemma TrimStartStep(s: string, t: string, r: string)
    requires |s| > 0 && t == s[1..]
    requires |r| <= |t| && r == t[|t| - |r|..]
    requires forall i :: 0 <= i < |t| - |r| ==> IsSpace(t[i])
    requires IsSpace(s[0])
    ensures r == s[|s| - |r|..]
    ensures forall i :: 0 <= i < |s| - |r| ==> IsSpace(s[i])
  {
    assert t[|t| - |r|..] == s[|s| - |r|..];
    forall i | 0 <= i < |s| - |r| ensures IsSpace(s[i]) {
      if i > 0 {
        assert s[i] == t[i - 1];
      }
    }
  }

  function TrimEnd(s: string): (r: string)
    ensures |r| <= |s| && r == s[..|r|]
    ensures |r| == 0 || !IsSpace(r[|r| - 1])
    ensures forall i :: |r| <= i < |s| ==> IsSpace(s[i])
    decreases |s|
  {
    if |s| > 0 && IsSpace(s[|s| - 1]) then
      var r := TrimEnd(s[..|s| - 1]);
      TrimEndStep(s, s[..|s| - 1], r);
      r
    else s
  }

  lemma TrimEndStep(s: string, t: string, r: string)
    requires |s| > 0 && t == s[..|s| - 1]
    requires |r| <= |t| && r == t[..|r|]
    requires forall i :: |r| <= i < |t| ==> IsSpace(t[i])
    requires IsSpace(s[|s| - 1])
    ensures r == s[..|r|]
    ensures forall i :: |r| <= i < |s| ==> IsSpace(s[i])
  {
    assert t[..|r|] == s[..|r|];
    forall i | |r| <= i < |s| ensures IsSpace(s[i]) {
      if i < |s| - 1 {
        assert s[i] == t[i];
      }
    }
  }

  /** `r` is the slice of `s` starting at `k`, and everything outside it is whitespace. */
  predicate StripsOnlySpace(s: string, k: int, r: string) {
    && 0 <= k <= |s| - |r|
    && r == s[k..k + |r|]
    && (forall i :: 0 <= i < k ==> IsSpace(s[i]))
    && (forall i :: k + |r| <= i < |s| ==> IsSpace(s[i]))
  }

  /** `String.prototype.trim`: whitespace dropped from both ends. */
  function Trim(s: string): (r: string)
    ensures Trimmed(r)
    ensures |r| <= |s|
    ensures Trimmed(s) ==> r == s
  {
    TrimEnd(TrimStart(s))
  }

  /** What trimming removes is whitespace and only whitespace: the result is
      the slice of `s` between two all-whitespace ends. */
  lemma TrimStripsOnlySpace(s: string)
    ensures exists k :: StripsOnlySpace(s, k, Trim(s))
  {
    TrimAt(s);
  }

  /** How many characters trimming drops from the front. */
  function TrimOffset(s: string): nat {
    |s| - |TrimStart(s)|
  }

  lemma TrimAt(s: string)
    ensures StripsOnlySpace(s, TrimOffset(s), Trim(s))
  {
    var u := TrimStart(s);
    var r := TrimEnd(u);
    var k := |s| - |u|;
    assert r == s[k..k + |r|] by {
      assert u == s[k..] && r == u[..|r|];
    }
    forall i | k + |r| <= i < |s| ensures IsSpace(s[i]) {
      assert s[i] == u[i - k];
    }
  }

  /** The trimmed string as a slice of the original. */
  lemma TrimSlice(s: string)
    ensures TrimOffset(s) + |Trim(s)| <= |s|
    ensures Trim(s) == s[TrimOffset(s)..TrimOffset(s) + |Trim(s)|]
  {
    TrimAt(s);
  }

  /** A string already without edge whitespace is its own trim. */
  lemma TrimOfTrimmed(s: string)
    requires Trimmed(s)
    ensures Trim(s) == s
  {
  }

  lemma TrimIdempotent(s: string)
    ensures Trim(Trim(s)) == Trim(s)
  {
    TrimOfTrimmed(Trim(s));
  }

  predicate NotSpace(c: char) { !IsSpace(c) }

  /** Deleting every whitespace run. */
  function RemoveSpaces(s: string): (r: string)
    ensures NoSpace(r)
    ensures |r| <= |s|
    ensures NoSpace(s) ==> r == s
    ensures forall i :: 0 <= i < |r| ==> r[i] in s
    decreases |s|
  {
    if |s| == 0 then ""
    else if IsSpace(s[0]) then RemoveSpaces(s[1..])
    else [s[0]] + RemoveSpaces(s[1..])
  }

  /** Deleting whitespace keeps exactly the other characters, in their order. */
  lemma {:induction false} RemoveSpacesIsFilter(s: string)
    ensures RemoveSpaces(s) == Keep(s, NotSpace)
    decreases |s|
  {
    if |s| > 0 {
      RemoveSpacesIsFilter(s[1..]);
    }
  }

  /** Deleting whitespace distributes over concatenation. */
  lemma RemoveSpacesAppend(a: string, b: string)
    ensures RemoveSpaces(a + b) == RemoveSpaces(a) + RemoveSpaces(b)
    ensures |a| == 1 ==> RemoveSpaces(a) == if IsSpace(a[0]) then "" else a
  {
    RemoveSpacesIsFilter(a);
    RemoveSpacesIsFilter(b);
    RemoveSpacesIsFilter(a + b);
    KeepAppend(a, b, NotSpace);
    if |a| == 1 {
      assert a[1..] == [];
    }
  }

  /** Leading whitespace contributes nothing once whitespace is deleted. */
  lemma RemoveSpacesTrimStart(u: string)
    ensures RemoveSpaces(TrimStart(u)) == RemoveSpaces(u)
  {
    var k := |u| - |TrimStart(u)|;
    assert u == u[..k] + u[k..];
    RemoveSpacesIsFilter(u);
    RemoveSpacesIsFilter(u[k..]);
    KeepAppend(u[..k], u[k..], NotSpace);
    KeepNone(u[..k], NotSpace);
  }

  /** Every character whitespace. */
  predicate AllSpace(w: string) {
    forall i :: 0 <= i < |w| ==> IsSpace(w[i])
  }

  /** Trimming first makes no difference once whitespace is deleted. */
  lemma RemoveSpacesTrim(s: string)
    ensures RemoveSpaces(Trim(s)) == RemoveSpaces(s)
  {
    RemoveSpacesTrimStart(s);
    RemoveSpacesTrimEnd(TrimStart(s));
  }

  /** Trailing whitespace contributes nothing once whitespace is deleted. */
  lemma {:induction false} RemoveSpacesTrimEnd(u: string)
    ensures RemoveSpaces(TrimEnd(u)) == RemoveSpaces(u)
    decreases |u|
  {
    if |u| > 0 && IsSpace(u[|u| - 1]) {
      var v := u[..|u| - 1];
      assert u == v + [u[|u| - 1]];
      RemoveSpacesAppend(v, [u[|u| - 1]]);
      RemoveSpacesTrimEnd(v);
    }
  }

  /** Whitespace alone deletes to nothing. */
  lemma {:induction false} RemoveSpacesOfSpace(w: string)
    requires AllSpace(w)
    ensures RemoveSpaces(w) == ""
    decreases |w|
  {
    if |w| > 0 {
      RemoveSpacesOfSpace(w[1..]);
    }
  }

  /** Every whitespace character is a plain space and no two are adjacent. */
  predicate SingleSpaced(s: string) {
    && (forall i :: 0 <= i < |s| && IsSpace(s[i]) ==> s[i] == ' ')
    && (forall i :: 0 <= i < |s| - 1 ==> !(IsSpace(s[i]) && IsSpace(s[i + 1])))
  }

  /** Each maximal whitespace run becomes one space. */
  function Collapse(s: string): (r: string)
    ensures |r| <= |s|
    ensures SingleSpaced(r)
    ensures |r| > 0 <==> |s| > 0
    ensures |r| > 0 ==> (IsSpace(r[0]) <==> IsSpace(s[0]))
    ensures forall i :: 0 <= i < |r| ==> r[i] == ' ' || (!IsSpace(r[i]) && r[i] in s)
    ensures RemoveSpaces(r) == RemoveSpaces(s)
    decreases |s|
  {
    if |s| == 0 then ""
    else if IsSpace(s[0]) then
      var rest := Collapse(TrimStart(s[1..]));
      CollapseSpaceStep(s, TrimStart(s[1..]), rest);
      " " + rest
    else
      var rest := Collapse(s[1..]);
      CollapseCharStep(s, rest);
      [s[0]] + rest
  }

  /** Trimming the front of a whitespace run followed by a non-space leaves what follows. */
  lemma {:induction false} TrimStartRun(w: string, b: string)
    requires AllSpace(w) && (|b| == 0 || !IsSpace(b[0]))
    ensures TrimStart(w + b) == b
    decreases |w|
  {
    if |w| == 0 {
      assert w + b == b;
    } else {
      assert (w + b)[1..] == w[1..] + b;
      TrimStartRun(w[1..], b);
    }
  }

  /** Trimming the front of text holding a non-space never reaches what is appended. */
  lemma {:induction false} TrimStartAppend(x: string, t: string)
    requires |TrimStart(x)| > 0
    ensures TrimStart(x + t) == TrimStart(x) + t
    decreases |x|
  {
    if IsSpace(x[0]) {
      assert (x + t)[1..] == x[1..] + t;
      TrimStartAppend(x[1..], t);
    }
  }

  /** Text ending in a non-space keeps something after its front is trimmed. */
  lemma TrimStartKeepsLast(x: string)
    requires |x| > 0 && !IsSpace(x[|x| - 1])
    ensures |TrimStart(x)| > 0 && !IsSpace(TrimStart(x)[|TrimStart(x)| - 1])
  {
    var u := TrimStart(x);
    if |u| > 0 {
      assert u[|u| - 1] == x[|x| - 1];
    }
  }

  /** `Collapse` without its guarantees, the form the run lemmas below reason about. */
  function Squeeze(s: string): string
    decreases |s|
  {
    if |s| == 0 then ""
    else if IsSpace(s[0]) then " " + Squeeze(TrimStart(s[1..]))
    else [s[0]] + Squeeze(s[1..])
  }

  /** `Squeeze` is `Collapse`. */
  lemma {:induction false} CollapseIsSqueeze(s: string)
    ensures Collapse(s) == Squeeze(s)
    decreases |s|
  {
    if |s| > 0 {
      if IsSpace(s[0]) {
        CollapseIsSqueeze(TrimStart(s[1..]));
      } else {
        CollapseIsSqueeze(s[1..]);
      }
    }
  }

  /** A whitespace run in front of a non-space becomes one space. */
  lemma SqueezeRun(w: string, b: string)
    requires |w| > 0 && AllSpace(w) && (|b| == 0 || !IsSpace(b[0]))
    ensures Squeeze(w + b) == " " + Squeeze(b)
  {
    assert (w + b)[0] == w[0];
    assert (w + b)[1..] == w[1..] + b;
    TrimStartRun(w[1..], b);
  }

  /** No whitespace run crosses the end of text that ends in a non-space, so
      such text collapses on its own. */
  lemma {:induction false} SqueezeAppend(a: string, t: string)
    requires |a| == 0 || !IsSpace(a[|a| - 1])
    ensures Squeeze(a + t) == Squeeze(a) + Squeeze(t)
    decreases |a|
  {
    if |a| == 0 {
      assert a + t == t;
    } else if !IsSpace(a[0]) {
      SqueezeAppend(a[1..], t);
      SqueezeCharStep(a, t);
    } else {
      TrimStartKeepsLast(a[1..]);
      SqueezeAppend(TrimStart(a[1..]), t);
      SqueezeSpaceStep(a, t);
    }
  }

  /** A leading non-space character stays in front of both sides. */
  lemma SqueezeCharStep(a: string, t: string)
    requires |a| > 0 && !IsSpace(a[0])
    requires Squeeze(a[1..] + t) == Squeeze(a[1..]) + Squeeze(t)
    ensures Squeeze(a + t) == Squeeze(a) + Squeeze(t)
  {
    var x, y := Squeeze(a[1..]), Squeeze(t);
    assert (a + t)[0] == a[0];
    assert (a + t)[1..] == a[1..] + t;
    assert Squeeze(a + t) == [a[0]] + (x + y);
    assert Squeeze(a) == [a[0]] + x;
    Assoc([a[0]], x, y);
  }

  /** A leading whitespace run stays in front of both sides as one space. */
  lemma SqueezeSpaceStep(a: string, t: string)
    requires |a| > 0 && IsSpace(a[0]) && |TrimStart(a[1..])| > 0
    requires Squeeze(TrimStart(a[1..]) + t) == Squeeze(TrimStart(a[1..])) + Squeeze(t)
    ensures Squeeze(a + t) == Squeeze(a) + Squeeze(t)
  {
    TrimStartTail(a, t);
    SqueezeSpaceJoin(a, t, TrimStart(a[1..]));
  }

  /** Trimming the tail of `a + t` keeps all of `t` when the tail of `a` holds a non-space. */
  lemma TrimStartTail(a: string, t: string)
    requires |a| > 0 && |TrimStart(a[1..])| > 0
    ensures TrimStart((a + t)[1..]) == TrimStart(a[1..]) + t
  {
    assert (a + t)[1..] == a[1..] + t;
    TrimStartAppend(a[1..], t);
  }

  /** The space step once the trimmed tail is known. */
  lemma SqueezeSpaceJoin(a: string, t: string, u: string)
    requires |a| > 0 && IsSpace(a[0]) && u == TrimStart(a[1..])
    requires TrimStart((a + t)[1..]) == u + t
    requires Squeeze(u + t) == Squeeze(u) + Squeeze(t)
    ensures Squeeze(a + t) == Squeeze(a) + Squeeze(t)
  {
    var x, y := Squeeze(u), Squeeze(t);
    assert (a + t)[0] == a[0];
    assert Squeeze(a + t) == " " + (x + y);
    assert Squeeze(a) == " " + x;
    Assoc(" ", x, y);
  }

  /** The run lemma for `Squeeze`, bracketed as the proof builds it. */
  lemma SqueezeRunInPlace(a: string, w: string, b: string)
    requires |a| == 0 || !IsSpace(a[|a| - 1])
    requires |w| > 0 && AllSpace(w)
    requires |b| == 0 || !IsSpace(b[0])
    ensures Squeeze(a + (w + b)) == Squeeze(a) + (" " + Squeeze(b))
  {
    SqueezeAppend(a, w + b);
    SqueezeRun(w, b);
  }

  /** Each maximal whitespace run becomes one space in its own place: text
      around a run collapses on both sides, with one space between. */
  lemma CollapseRunInPlace(a: string, w: string, b: string)
    requires |a| == 0 || !IsSpace(a[|a| - 1])
    requires |w| > 0 && AllSpace(w)
    requires |b| == 0 || !IsSpace(b[0])
    ensures Collapse(a + w + b) == Collapse(a) + " " + Collapse(b)
  {
    SqueezeRunInPlace(a, w, b);
    Assoc(a, w, b);
    CollapseIsSqueeze(a + w + b);
    CollapseIsSqueeze(a);
    CollapseIsSqueeze(b);
    Assoc(Collapse(a), " ", Collapse(b));
  }

  /** What `Collapse` promises of `rest`, collapsed from `t`. */
  predicate CollapsedFrom(rest: string, t: string) {
    && |rest| <= |t|
    && SingleSpaced(rest)
    && (|rest| > 0 <==> |t| > 0)
    && (|rest| > 0 ==> (IsSpace(rest[0]) <==> IsSpace(t[0])))
    && (forall i :: 0 <= i < |rest| ==> rest[i] == ' ' || (!IsSpace(rest[i]) && rest[i] in t))
    && RemoveSpaces(rest) == RemoveSpaces(t)
  }

  lemma InSuffix(s: string, k: nat, c: char)
    requires k <= |s| && c in s[k..]
    ensures c in s
  {
    var i :| 0 <= i < |s[k..]| && s[k..][i] == c;
    assert s[k + i] == c;
  }

  /** A leading whitespace run becomes one space in front of the collapsed rest. */
  lemma CollapseSpaceStep(s: string, t: string, rest: string)
    requires |s| > 0 && IsSpace(s[0]) && t == TrimStart(s[1..])
    requires |rest| <= |t| && SingleSpaced(rest) && (|rest| > 0 <==> |t| > 0)
    requires |rest| > 0 ==> (IsSpace(rest[0]) <==> IsSpace(t[0]))
    requires forall i :: 0 <= i < |rest| ==> rest[i] == ' ' || (!IsSpace(rest[i]) && rest[i] in t)
    requires RemoveSpaces(rest) == RemoveSpaces(t)
    ensures CollapsedFrom(" " + rest, s)
  {
    SpaceRunText(s, rest);
    SpaceInFront(rest);
    var k := 1 + |s[1..]| - |t|;
    assert t == s[k..];
    SuffixChars(s, k, rest, " " + rest);
  }

  /** Replacing a leading whitespace run by one space keeps the other characters. */
  lemma SpaceRunText(s: string, rest: string)
    requires |s| > 0 && IsSpace(s[0]) && RemoveSpaces(rest) == RemoveSpaces(TrimStart(s[1..]))
    ensures RemoveSpaces(" " + rest) == RemoveSpaces(s)
  {
    assert (" " + rest)[1..] == rest;
    assert RemoveSpaces(" " + rest) == RemoveSpaces(rest);
    RemoveSpacesTrimStart(s[1..]);
  }

  /** One space in front of single-spaced text that does not start with whitespace. */
  lemma SpaceInFront(rest: string)
    requires SingleSpaced(rest) && (|rest| == 0 || !IsSpace(rest[0]))
    ensures SingleSpaced(" " + rest)
  {
    var r := " " + rest;
    forall i | 0 <= i < |r| && IsSpace(r[i]) ensures r[i] == ' ' {
      if i > 0 {
        assert r[i] == rest[i - 1];
      }
    }
    forall i | 0 <= i < |r| - 1 ensures !(IsSpace(r[i]) && IsSpace(r[i + 1])) {
      if i == 0 {
        assert r[1] == rest[0];
      } else {
        assert r[i] == rest[i - 1] && r[i + 1] == rest[i];
      }
    }
  }

  /** Putting one character in front keeps the characters' provenance. */
  lemma SuffixChars(s: string, k: nat, rest: string, r: string)
    requires 0 < k <= |s| && |r| == |rest| + 1 && r[1..] == rest
    requires r[0] == ' ' || (!IsSpace(r[0]) && r[0] in s)
    requires forall i :: 0 <= i < |rest| ==> rest[i] == ' ' || (!IsSpace(rest[i]) && rest[i] in s[k..])
    ensures forall i :: 0 <= i < |r| ==> r[i] == ' ' || (!IsSpace(r[i]) && r[i] in s)
  {
    forall i | 0 < i < |r| ensures r[i] == ' ' || (!IsSpace(r[i]) && r[i] in s) {
      assert r[i] == rest[i - 1];
      if r[i] != ' ' {
        InSuffix(s, k, r[i]);
      }
    }
  }

  /** A leading non-space character is kept in front of the collapsed rest. */
  lemma CollapseCharStep(s: string, rest: string)
    requires |s| > 0 && !IsSpace(s[0])
    requires |rest| <= |s[1..]| && SingleSpaced(rest) && (|rest| > 0 <==> |s[1..]| > 0)
    requires |rest| > 0 ==> (IsSpace(rest[0]) <==> IsSpace(s[1..][0]))
    requires forall i :: 0 <= i < |rest| ==> rest[i] == ' ' || (!IsSpace(rest[i]) && rest[i] in s[1..])
    requires RemoveSpaces(rest) == RemoveSpaces(s[1..])
    ensures CollapsedFrom([s[0]] + rest, s)
  {
    RemoveSpacesAppend([s[0]], rest);
    RemoveSpacesAppend([s[0]], s[1..]);
    assert [s[0]] + s[1..] == s;
    CharInFront(s[0], rest);
    SuffixChars(s, 1, rest, [s[0]] + rest);
  }

  /** A non-space character in front of single-spaced text. */
  lemma CharInFront(c: char, rest: string)
    requires SingleSpaced(rest) && !IsSpace(c)
    ensures SingleSpaced([c] + rest)
  {
    var r := [c] + rest;
    forall i | 0 <= i < |r| && IsSpace(r[i]) ensures r[i] == ' ' {
      assert r[i] == rest[i - 1];
    }
    forall i | 0 <= i < |r| - 1 ensures !(IsSpace(r[i]) && IsSpace(r[i + 1])) {
      if i > 0 {
        assert r[i] == rest[i - 1] && r[i + 1] == rest[i];
      }
    }
  }

  /** Collapsing is the identity on text that is already single-spaced. */
  lemma {:induction false} CollapseOfSingleSpaced(s: string)
    requires SingleSpaced(s)
    ensures Collapse(s) == s
    decreases |s|
  {
    if |s| > 0 {
      assert SingleSpaced(s[1..]);
      if IsSpace(s[0]) {
        assert TrimStart(s[1..]) == s[1..];
      }
      CollapseOfSingleSpaced(s[1..]);
    }
  }

  /** A slice of single-spaced text is single-spaced. */
  lemma SingleSpacedSlice(s: string, i: nat, j: nat)
    requires i <= j <= |s| && SingleSpaced(s)
    ensures SingleSpaced(s[i..j])
  {
    var t := s[i..j];
    forall k | 0 <= k < |t| - 1
      ensures !(IsSpace(t[k]) && IsSpace(t[k + 1]))
    {
      assert t[k] == s[i + k] && t[k + 1] == s[i + k + 1];
    }
  }

  /** The characters that separate fields of a scanned payload: newline, pipe and carriage return. */
  predicate IsBreak(c: char) { c == '\n' || c == '|' || c == '\r' }

  predicate NoBreak(s: string) {
    forall i :: 0 <= i < |s| ==> !IsBreak(s[i])
  }

  /** Splitting on the separators: the maximal break-free runs, empty runs included. */
  function Split(s: string): (parts: seq<string>)
    ensures |parts| >= 1
    ensures forall k :: 0 <= k < |parts| ==> NoBreak(parts[k])
    ensures NoBreak(s) ==> parts == [s]
    decreases |s|
  {
    if |s| == 0 then [""]
    else
      var rest := Split(s[1..]);
      if IsBreak(s[0]) then [""] + rest
      else
        assert NoBreak(s) ==> NoBreak(s[1..]) && [s[0]] + s[1..] == s;
        [[s[0]] + rest[0]] + rest[1..]
  }

  /** A break-free head followed by one break splits off as the first part. */
  lemma {:induction false} SplitAtBreak(x: string, c: char, y: string)
    requires NoBreak(x) && IsBreak(c)
    ensures Split(x + [c] + y) == [x] + Split(y)
    decreases |x|
  {
    if |x| == 0 {
      assert x + [c] + y == [c] + y;
      assert ([c] + y)[1..] == y;
    } else {
      var s := x + [c] + y;
      assert s[1..] == x[1..] + [c] + y;
      SplitAtBreak(x[1..], c, y);
      assert [x[0]] + x[1..] == x;
    }
  }

  /** Splitting undoes joining with a break character, whenever no part holds one. */
  lemma {:induction false} SplitJoin(parts: seq<string>, c: char)
    requires |parts| >= 1 && IsBreak(c)
    requires forall k :: 0 <= k < |parts| ==> NoBreak(parts[k])
    ensures Split(Join(parts, [c])) == parts
    decreases |parts|
  {
    if |parts| > 1 {
      SplitJoin(parts[1..], c);
      SplitAtBreak(parts[0], c, Join(parts[1..], [c]));
      assert Join(parts, [c]) == parts[0] + [c] + Join(parts[1..], [c]);
      assert [parts[0]] + parts[1..] == parts;
    }
  }

  /** `String.prototype.toUpperCase` on ASCII and on the Latin-1 lower-case letters. */
  function UpperChar(c: char): (u: char)
    ensures 'a' <= c <= 'z' ==> u as int == c as int - 32
    ensures !('a' <= c <= 'z') && !('\U{E0}' <= c <= '\U{FE}') ==> u == c
    ensures IsSpace(u) <==> IsSpace(c)
  {
    if 'a' <= c <= 'z' || ('\U{E0}' <= c <= '\U{FE}' && c != '\U{F7}') then (c as int - 32) as char
    else c
  }

  function ToUpper(s: string): (r: string)
    ensures |r| == |s|
    ensures forall i :: 0 <= i < |s| ==> r[i] == UpperChar(s[i])
  {
    seq(|s|, i requires 0 <= i < |s| => UpperChar(s[i]))
  }

  /** Upper-casing keeps a string trimmed and keeps it empty exactly when it was. */
  lemma ToUpperTrimmed(s: string)
    ensures Trimmed(s) ==> Trimmed(ToUpper(s))
    ensures ToUpper(s) == "" <==> s == ""
  {
  }

  /** Upper-casing twice is upper-casing once. */
  lemma ToUpperIdempotent(s: string)
    ensures ToUpper(ToUpper(s)) == ToUpper(s)
  {
    forall i | 0 <= i < |s| ensures UpperChar(UpperChar(s[i])) == UpperChar(s[i]) {
    }
  }
}

=== FILE: vehiculos.dfy ===
/** The vehicle routes (backend/routes/vehiculos.js): listing by plate and/or
    owner (resolving an owner's national ID to a Persona record id first),
    plate search, and find-or-create keyed on plate AND owner link. */
module Vehiculos {
  import opened Basics
  import opened Text
  import opened Formula
  import opened Store
  import Personas

  datatype VehiculoQuery = VehiculoQuery(placa: Option<string>, cedula: Option<string>, personaRecordId: Option<string>)

  datatype VehiculoBody = VehiculoBody(placa: Option<string>, personaRecordId: Option<string>, tipo: Option<string>)

  /** The owner-link clause: a `FIND` of the record id, inside double quotes
      but without any escaping, in the joined `persona_cedula` links. */
  function OwnerClause(personaId: string): string {
    "FIND(\"" + personaId + "\", ARRAYJOIN({persona_cedula}))"
  }

  /** The owner a listing filters on: a given record id wins; otherwise a
      non-empty ID is resolved to the first Persona holding it, and an ID
      that resolves to nothing gives no owner at all. */
  function ResolveOwner(personas: seq<Persona>, q: VehiculoQuery): (owner: string)
    ensures Sanitize(q.personaRecordId) != "" ==> owner == Sanitize(q.personaRecordId)
    ensures Sanitize(q.cedula) == "" ==> owner == Sanitize(q.personaRecordId)
    ensures Sanitize(q.personaRecordId) == "" && Sanitize(q.cedula) != "" ==>
              if forall k :: 0 <= k < |personas| ==> personas[k].cedula != Sanitize(q.cedula)
              then owner == ""
              else exists k :: 0 <= k < |personas| && personas[k].cedula == Sanitize(q.cedula)
                     && owner == personas[k].id
                     && forall j :: 0 <= j < k ==> personas[j].cedula != Sanitize(q.cedula)
  {
    var cedula := Sanitize(q.cedula);
    var given := Sanitize(q.personaRecordId);
    if cedula != "" && given == "" then
      match Personas.FindByCedula(personas, cedula)
      case Some(k) => personas[k].id
      case None => ""
    else given
  }

  /** The filter built from an optional plate and an optional owner. */
  function PlateOwnerFilter(placa: string, owner: string): (f: string)
    ensures f == "" <==> placa == "" && owner == ""
    ensures placa != "" && owner == "" ==> f == AirtableEq("placa", placa)
    ensures placa == "" && owner != "" ==> f == OwnerClause(owner)
    ensures placa != "" && owner != "" ==>
              f == "AND(" + AirtableEq("placa", placa) + "," + OwnerClause(owner) + ")"
  {
    var clauses := (if placa != "" then [AirtableEq("placa", placa)] else [])
                 + (if owner != "" then [OwnerClause(owner)] else []);
    if placa != "" && owner != "" then
      BuildFilterPair(AirtableEq("placa", placa), OwnerClause(owner));
      BuildFilterByFormula(clauses)
    else if clauses == [] then
      BuildFilterByFormula(clauses)
    else
      assert |clauses| == 1 && clauses[0] != "";
      BuildFilterSingle([], clauses[0], []);
      assert [] + [clauses[0]] + [] == clauses;
      BuildFilterByFormula(clauses)
  }

  /** GET /: one equality clause for a plate, one link clause for an owner,
      combined by `buildFilterByFormula`; with neither there is no filter. */
  function ListVehiculos(personas: seq<Persona>, q: VehiculoQuery): (r: Query)
    ensures r.filter.None? <==> Sanitize(q.placa) == "" && ResolveOwner(personas, q) == ""
    ensures r.filter.Some? ==> r.filter.value == PlateOwnerFilter(Sanitize(q.placa), ResolveOwner(personas, q))
    ensures r.maxRecords == 50
    ensures r.sort == [SortSpec("placa", "asc")]
  {
    MakeQuery(PlateOwnerFilter(Sanitize(q.placa), ResolveOwner(personas, q)), 50,
              SortArray([SortSpec("placa", "asc")]))
  }

  /** For a plate without double quotes the filter is the one the source sends. */
  lemma PlateOwnerFilterAsSent(placa: string, owner: string)
    requires placa != "" && NoQuote(placa)
    ensures owner == "" ==> PlateOwnerFilter(placa, owner) == AirtableEqAsWritten("placa", placa)
    ensures owner != "" ==>
              PlateOwnerFilter(placa, owner) == "AND(" + AirtableEqAsWritten("placa", placa) + "," + OwnerClause(owner) + ")"
  {
    QuoteFreeAgrees("placa", placa);
  }

  /** An ID that matches no Persona, with no plate and no record id, leaves
      the listing without any filter. */
  lemma UnresolvedCedulaListsEverything(personas: seq<Persona>, cedula: string)
    requires Sanitize(Some(cedula)) != ""
    requires forall k :: 0 <= k < |personas| ==> personas[k].cedula != Sanitize(Some(cedula))
    ensures ListVehiculos(personas, VehiculoQuery(None, Some(cedula), None)).filter.None?
  {
  }

  /** GET /search: a "contains" on the plate only for a non-empty query. */
  function SearchVehiculos(query: Option<string>): (r: Query)
    ensures r.filter.None? <==> Sanitize(query) == ""
    ensures r.filter.Some? ==> r.filter.value == AirtableContains("placa", Sanitize(query))
    ensures r.maxRecords == 10 && r.sort == []
  {
    var q := Sanitize(query);
    if q == "" then MakeQuery("", 10, NoSort)
    else
      var clause := AirtableContains("placa", q);
      assert BuildFilterByFormula([clause]) == clause by {
        BuildFilterSingle([], clause, []);
        assert [] + [clause] + [] == [clause];
      }
      MakeQuery(BuildFilterByFormula([clause]), 10, NoSort)
  }

  /** For a query without double quotes the filter is the one the source sends. */
  lemma SearchVehiculosAsSent(query: Option<string>)
    requires Sanitize(query) != "" && NoQuote(Sanitize(query))
    ensures SearchVehiculos(query).filter == Some(AirtableContainsAsWritten("placa", Sanitize(query)))
  {
    QuoteFreeAgrees("placa", Sanitize(query));
  }

  /** The search on plate AND owner link, `maxRecords: 1`: the first vehicle
      in table order with that plate linked to that owner. */
  function FindVehiculo(t: seq<Vehiculo>, placa: string, owner: string): (r: Option<nat>)
    ensures r.None? <==> forall k :: 0 <= k < |t| ==> !(t[k].placa == placa && owner in t[k].owners)
    ensures r.Some? ==> r.value < |t| && t[r.value].placa == placa && owner in t[r.value].owners
    ensures r.Some? ==> forall j :: 0 <= j < r.value ==> !(t[j].placa == placa && owner in t[j].owners)
  {
    First(t, (v: Vehiculo) => v.placa == placa && owner in v.owners)
  }

  /** No owner has two vehicles with the same plate. */
  predicate UniquePlatePerOwner(t: seq<Vehiculo>) {
    forall i, j, o :: 0 <= i < j < |t| && o in t[i].owners && o in t[j].owners ==> t[i].placa != t[j].placa
  }

  const VehiculoRequired := "placa y persona_record_id son requeridos"

  /** POST /: the plate is upper-cased after sanitising; rejected without
      touching the table when the plate or the owner id is empty; an existing
      vehicle with that plate linked to that owner is returned unchanged;
      otherwise one active vehicle linked to the owner is inserted, with a
      type only when one was given. */
  function PostVehiculo(t: seq<Vehiculo>, body: VehiculoBody, newId: string): (r: Reply<Vehiculo>)
    ensures var placa := ToUpper(Sanitize(body.placa));
            var owner := Sanitize(body.personaRecordId);
            && (r.response.Rejected? <==> placa == "" || owner == "")
            && (r.response.Rejected? ==> r.table == t)
            && (r.response.Saved? ==> r.response.record.placa == placa && owner in r.response.record.owners)
            && (r.response.Saved? && !r.response.created ==> r.table == t && r.response.record in t)
            && (r.response.Saved? && r.response.created ==>
                  && (forall k :: 0 <= k < |t| ==> !(t[k].placa == placa && owner in t[k].owners))
                  && r.table == t + [r.response.record]
                  && r.response.record.id == newId
                  && r.response.record.owners == [owner]
                  && r.response.record.activo
                  && (r.response.record.tipo.Some? <==> Sanitize(body.tipo) != "")
                  && (r.response.record.tipo.Some? ==> r.response.record.tipo.value == Sanitize(body.tipo)))
  {
    var placa := ToUpper(Sanitize(body.placa));
    var owner := Sanitize(body.personaRecordId);
    var tipo := Sanitize(body.tipo);
    if placa == "" || owner == "" then Reply(Rejected(VehiculoRequired), t)
    else match FindVehiculo(t, placa, owner)
      case Some(k) => Reply(Saved(false, t[k]), t)
      case None =>
        var created := Vehiculo(newId, placa, [owner], if tipo != "" then Some(tipo) else None, true);
        Reply(Saved(true, created), t + [created])
  }

  /** Find-or-create never gives an owner two vehicles with the same plate. */
  lemma PostKeepsPlatePerOwnerUnique(t: seq<Vehiculo>, body: VehiculoBody, newId: string)
    requires UniquePlatePerOwner(t)
    ensures UniquePlatePerOwner(PostVehiculo(t, body, newId).table)
  {
    var r := PostVehiculo(t, body, newId);
    var t' := r.table;
    if r.response.Saved? && r.response.created {
      var owner := Sanitize(body.personaRecordId);
      forall i, j, o | 0 <= i < j < |t'| && o in t'[i].owners && o in t'[j].owners
        ensures t'[i].placa != t'[j].placa
      {
        assert t'[i] == t[i];
        if j == |t| {
          assert t'[j].owners == [owner];
        } else {
          assert t'[j] == t[j];
        }
      }
    }
  }
}
